=== FILE: README.md ===
# Chemical compositions of PyChemia, in Dafny

This project models the `Composition` class of PyChemia
(`pychemia/core/composition.py`). A composition maps each atomic species (an
atomic symbol such as `"Fe"`) to its number of atoms. The model covers:

- building a composition from a formula, a dictionary or a list of symbols;
- the queries `__getitem__`, `__contains__`, `natom`, `gcd`, `values` and
  `symbols`;
- the hand-written formula scanner `formula_parser`;
- the regular-expression expander `formula_to_list`;
- the serialiser `sorted_formula`, in alphabetical or simplified Hill order
  and optionally reduced by the gcd, and the `formula` property built on it;
- the integer encoding of the species `species_encoded` / `species_hex` and
  its inverse `get_species_from_hex`.

Modules, one per file:

| module | file | contents |
|---|---|---|
| `Wrappers` | `wrappers.dfy` | `Option` and `Result` |
| `Symbols` | `symbols.dfy` | ASCII character classes, Python's string order `Below`, `sorted` of a set of symbols |
| `Divisibility` | `divisibility.dfy` | divisibility, `math.gcd` (Euclid) and `reduce(gcd, values)` |
| `Compositions` | `compositions.dfy` | the composition type, construction, `__getitem__`, `natom`, `gcd`, reduction, `symbols` |
| `Formula` | `formula.dfy` | `formula_parser`, `sorted_formula`, `formula`, `formula_to_list`, and the round trips between them |
| `SpeciesCode` | `species_code.dfy` | `species_encoded`, `species_hex`, `get_species_from_hex` |
| `Doctests` | `doctests.dfy` | worked examples proved about the model, most of them the docstring examples of the class |

A composition is a `map<string, nat>`. The periodic table (`atomic_symbols`
and `atomic_number` of `pychemia.utils.periodic`) is a parameter: a
`map<string, nat>` from symbol to atomic number. Where the class asserts a
precondition, the model returns a `Result`. `_set_composition` fails with
`NotASymbol` on a key that is not an atomic symbol. `sorted_formula(reduced=True)`
fails with `NoAtoms` on a composition without atoms: the source evaluates
`None > 1`, which raises under Python 3.

Main results:

- **Parsing undoes writing** (parsing is a left inverse of writing). `formula_parser(sorted_formula(c, reduced=False)) == c`
  in both orders, for every composition whose counts are at least 1 and
  whose keys have the shape the scanner recognises (`Formula.ParseSortedFormula`).
  With `reduced=True`, for such a composition with at least one atom, the
  parser returns the composition divided by its gcd
  (`Formula.ParseReducedFormula`). A zero count is written without a number
  and reads back as 1 (`Doctests.ZeroCountExample`).
- **Tokenisation.** A species followed by a digit run takes the run's decimal
  value, provided the next character is not a digit. When the run is empty
  and the symbol has fewer than three letters, the next character must also
  not be a lowercase letter, since it would extend the symbol. Leading zeros
  are ignored, and a species written again overwrites its earlier count
  (`Formula.ScanSpecies`). Characters that start no species, such as
  parentheses and spaces, are skipped (`Doctests.ParenthesesExample`).
- **The gcd.** `gcd` is `None` exactly when there are no atoms. Otherwise it
  is a positive common divisor of the counts, and every common divisor
  divides it. Dividing by it leaves counts whose gcd is 1.
- **The symbol list.** For a composition whose counts are all at least 1 and
  whose species have the shape the scanner recognises, `formula_to_list` of
  the unreduced alphabetical formula equals `symbols`. That list is sorted,
  holds each species as often as its count, and has length `natom`. A zero
  count breaks this: `{H: 0}` is written `"H"`, which `formula_to_list` reads
  as `["H"]`, while `symbols` is empty. For such a composition, on its written
  formula with `nunits = k`, `formula_to_list` lists the species group by
  group, each `k` times its count (`Formula.FormulaToListOfWritten`).
- **Encoding and decoding species.** `get_species_from_hex(species_hex())` gives back
  the ascending atomic numbers, one per species. The decoding loop stops
  because the number strictly decreases.

## Model

| member | source | states |
|---|---|---|
| `Compositions.SetComposition` | pychemia/core/composition.py:152-162 | the dictionary is accepted unchanged exactly when all its keys are atomic symbols; otherwise the result is the `NotASymbol` error |
| `Compositions.CountOccurrences` | pychemia/core/composition.py:73-79 | the dictionary built from a list of symbols has exactly the listed symbols as keys, each mapped to its number of occurrences (at least 1) |
| `Compositions.FromSymbolList` | pychemia/core/composition.py:73-80 | construction from a list succeeds exactly when every entry is an atomic symbol, and then `__getitem__` gives each symbol's multiplicity in the list |
| `Compositions.Empty` | pychemia/core/composition.py:82 | `Composition()` contains no species, gives 0 for every species, has no atoms and has no gcd |
| `Compositions.Get` | pychemia/core/composition.py:87-107 | `__getitem__` gives the stored count of a contained species and 0 for any other; a positive count means the species is contained |
| `Compositions.Contains` | pychemia/core/composition.py:135-150 | `__contains__` holds exactly when the species is among the sorted species of the composition |
| `Compositions.ContainsIffPositive` | pychemia/core/composition.py:104-150 | on a composition built from a list, `__contains__` holds exactly when `__getitem__` is positive, which is exactly when the symbol is in the list; an absent species gives 0 |
| `Compositions.Values` | pychemia/core/composition.py:235-242 | `values` holds one count per species: entry `i` is the count of the `i`-th species in sorted order |
| `Compositions.Natom` | pychemia/core/composition.py:244-251 | the atom total is 0 exactly when every species has count 0 |
| `Compositions.Gcd` | pychemia/core/composition.py:182-205 | `None` exactly when `natom` is 0; otherwise a positive common divisor of all counts that every common divisor divides, i.e. the greatest one |
| `Compositions.GcdIsCount` | pychemia/core/composition.py:190-196 | a positive common divisor equal to one of the counts is the gcd |
| `Compositions.Divided` | pychemia/core/composition.py:386-389 | the copy divided by `g` has the same species, and each count is the floor of the count divided by `g` (`r * g <= n < r * g + g`) |
| `Compositions.DividedRestores` | pychemia/core/composition.py:386-389 | floor-dividing every count by a common divisor is exact: multiplying back restores each count |
| `Compositions.ReducedHasUnitGcd` | pychemia/core/composition.py:386-389 | after dividing every count by the gcd, the gcd of the result is 1 |
| `Compositions.SymbolList` | pychemia/core/composition.py:207-217 | `symbols` is sorted, holds each species exactly `__getitem__` times, and its length is `natom` |
| `Compositions.SymbolListOfCounted` | pychemia/core/composition.py:73-80 | a composition built from a list lists the same symbols back (as a multiset) and has as many atoms as the list has entries |
| `Divisibility.Gcd` | pychemia/core/composition.py:13 | `math.gcd` divides both arguments, is divisible by every common divisor, and is 0 only for `gcd(0, 0)` |
| `Divisibility.GcdOf` | pychemia/core/composition.py:203 | `reduce(gcd, values)` divides every value, is divisible by every common divisor, and is 0 exactly when all values are 0 |
| `Symbols.SortedSymbols` | pychemia/core/composition.py:409 | `sorted` of the species has the same elements, no duplicates, and is strictly increasing in Python's string order |
| `Symbols.StrictlySortedUnique` | pychemia/core/composition.py:409 | two strictly sorted lists with the same elements are equal, so the alphabetical order is unique |
| `Formula.Decimal` | pychemia/core/composition.py:414 | `"%d" % n` is a non-empty run of decimal digits whose value is `n`, with no leading zero |
| `Formula.Scan` | pychemia/core/composition.py:272-300 | the scanning loop keeps every key it already has and adds only well-formed symbols |
| `Formula.FormulaParser` | pychemia/core/composition.py:254-300 | every species the parser reports is an uppercase letter followed by at most two lowercase letters |
| `Formula.ScanSpecies` | pychemia/core/composition.py:277-299 | at a symbol followed by a digit run, the parser records the run's value (1 for no digits, leading zeros ignored), overwriting an earlier count, and resumes after the digits. The only conditions are that the next character is not a digit and, when the run is empty and the symbol is shorter than three letters, that it is not a lowercase letter |
| `Formula.FromFormula` | pychemia/core/composition.py:64-65 | construction from a formula succeeds exactly when every parsed species is an atomic symbol, and then yields the parsed dictionary |
| `Formula.Without` | pychemia/core/composition.py:401-406 | removing a species keeps all others, preserves sortedness, and shortens a duplicate-free list by one exactly when the species was present |
| `Formula.HillOrder` | pychemia/core/composition.py:398-407 | the Hill order lists each species once, C first when present, then H when present, then the remaining species alphabetically |
| `Formula.HillOrderSplit` | pychemia/core/composition.py:398-407 | the Hill order is the leading C and H followed by the alphabetical order of the other species |
| `Formula.SortByName` | pychemia/core/composition.py:392-409 | the `sortby` string selects the Hill order exactly for `"hill"`, no order (`None`) exactly for `"electroneg"`, and the alphabetical order for every other string |
| `Formula.Order` | pychemia/core/composition.py:392-409 | both orders list every species exactly once |
| `Formula.SortedFormula` | pychemia/core/composition.py:386-415 | `sorted_formula` fails, with `NoAtoms`, exactly when a reduced formula is asked of a composition without atoms |
| `Formula.Token` | pychemia/core/composition.py:411-414 | one written species is its symbol followed by digits. Digits are written exactly when the count exceeds 1, never with a leading zero, and they read back as the count whenever the count is at least 1 |
| `Formula.Render` | pychemia/core/composition.py:410-414 | the written formula starts with the first species of the order, and, when every species is a well-formed symbol, is empty or starts a species |
| `Formula.UnreducedFormulaEntries` | pychemia/core/composition.py:410-415 | for a composition whose counts are all at least 1 and whose species are well-formed symbols, the unreduced formula, read back with the patterns of `formula_to_list`, holds every species exactly once, in the chosen order, with its own count |
| `Formula.ReducedFormulaText` | pychemia/core/composition.py:386-391 | the reduced formula writes the composition whose counts are divided by the gcd |
| `Formula.FormulaText` | pychemia/core/composition.py:173-180 | the `formula` property exists exactly when there are atoms |
| `Formula.ParseRender` | pychemia/core/composition.py:410-414 | for a composition whose counts are all at least 1 and whose species are well-formed symbols, parsing the species of any complete order, written symbol-then-count, recovers the composition |
| `Formula.ParseSortedFormula` | pychemia/core/composition.py:343-415 | round trip: `formula_parser(sorted_formula(c, reduced=False)) == c` in both orders, for a composition whose counts are all at least 1 and whose species are well-formed symbols |
| `Formula.ParseReducedFormula` | pychemia/core/composition.py:386-415 | for a composition whose counts are all at least 1 and whose species are well-formed symbols and at least one atom, parsing the reduced formula gives the composition divided by its gcd |
| `Formula.Entries` | pychemia/core/composition.py:329-336 | each match the two regular expressions read is named by a non-empty run of letters starting with an uppercase one; there are no more matches than characters |
| `Formula.FormulaToList` | pychemia/core/composition.py:303-341 | every listed symbol is the name of one of the formula's matches and starts with an uppercase letter; a non-positive `nunits` gives the empty list |
| `Formula.FormulaToListLength` | pychemia/core/composition.py:329-341 | the list holds `nunits` times the sum of the formula's counts, and is empty for `nunits <= 0` |
| `Formula.EntriesOfRender` | pychemia/core/composition.py:329-336 | for a composition whose counts are all at least 1 and whose species are well-formed symbols, the regular expressions read each species of its written formula once, in order, with its count |
| `Formula.FormulaToListCounts` | pychemia/core/composition.py:329-339 | on any formula and any `nunits = k >= 0`, a symbol occurs `k` times the counts of all its matches added up, so a species written twice contributes both counts |
| `Formula.FormulaToListOfWritten` | pychemia/core/composition.py:329-339 | for a composition whose counts are all at least 1 and whose species are well-formed symbols, on its formula written along a duplicate-free order, `formula_to_list(f, k)` lists the species group by group, in that order, each `k` times its count. Any other string does not occur |
| `Formula.FormulaToListIsSymbolList` | pychemia/core/composition.py:303-341 | for a composition with counts at least 1 and well-formed species, `formula_to_list` of the unreduced alphabetical formula is the `symbols` list |
| `SpeciesCode.SortedNumbers` | pychemia/core/composition.py:427 | sorting a set of atomic numbers gives a strictly increasing list with the same elements |
| `SpeciesCode.AtomicNumbers` | pychemia/core/composition.py:427 | the species' atomic numbers in strictly increasing order, one per species when the table is one-to-one |
| `SpeciesCode.EncodeDigits` | pychemia/core/composition.py:425-430 | the accumulation loop computes the sum of `z_i * base ** i` |
| `SpeciesCode.SpeciesEncoded` | pychemia/core/composition.py:417-430 | `species_encoded(base)` is the ascending atomic numbers read as base-`base` digits, least significant first |
| `SpeciesCode.SpeciesHex` | pychemia/core/composition.py:447-448 | `species_hex` encodes in base 256 |
| `SpeciesCode.GetSpeciesFromHex` | pychemia/core/composition.py:462-467 | the decoding loop terminates and returns the base-256 digits, least significant first |
| `SpeciesCode.Digits` | pychemia/core/composition.py:464-466 | the decoding recursion gives no digits exactly when the number is at most 0, and every digit is below 256 |
| `SpeciesCode.DigitsAreBytes` | pychemia/core/composition.py:464-466 | every decoded digit is below 256, and the last one is not 0 |
| `SpeciesCode.EncodeOfDigits` | pychemia/core/composition.py:462-467 | re-encoding the decoded digits gives back the number |
| `SpeciesCode.DigitsOfEncode` | pychemia/core/composition.py:462-467 | decoding the encoding of digits in 1..255 gives back the digits |
| `SpeciesCode.SpeciesHexRoundTrip` | pychemia/core/composition.py:432-467 | `get_species_from_hex(species_hex())` gives back the ascending atomic numbers, one per species |
| `Doctests.GoldExample` | pychemia/core/composition.py:265-266 | `formula_parser('Au20')` is `{'Au': 20}` |
| `Doctests.ThreeLetterExample` | pychemia/core/composition.py:267-269 | `formula_parser('UutUupUusUuo')` gives each three-letter species count 1 |
| `Doctests.LeadingZeroExample` | pychemia/core/composition.py:378-380 | `S04H2` parses to four sulfur atoms and two hydrogen atoms |
| `Doctests.OverwriteExample` | pychemia/core/composition.py:296-299 | in `H2OH3` the second count of H replaces the first |
| `Doctests.ParenthesesExample` | pychemia/core/composition.py:273-299 | `'Fe2(SO4)3'` parses to Fe=2, S=1, O=4: the parentheses are skipped and the `3` after them is not read as a count |
| `Doctests.CountingExample` | pychemia/core/composition.py:50-55 | `['O', 'H', 'O']` gives two species, with `'O'` counted 2 |
| `Doctests.GcdOneExample` | pychemia/core/composition.py:191-193 | the gcd of NaCl is 1 |
| `Doctests.GcdTwoExample` | pychemia/core/composition.py:194-196 | the gcd of Na2Cl2 is 2 |
| `Doctests.EmptyExample` | pychemia/core/composition.py:197-199 | the empty composition has gcd `None` and no formula |
| `Doctests.HillReducedExample` | pychemia/core/composition.py:363-365 | the reduced Hill formula of C5H10 is `CH2` |
| `Doctests.HillOrderExample` | pychemia/core/composition.py:372-374 | the unreduced Hill formula of IH3C is `CH3I` |
| `Doctests.HillWithoutCarbonExample` | pychemia/core/composition.py:378-380 | the unreduced Hill formula of S4H2 is `H2S4` |
| `Doctests.AlphaExample` | pychemia/core/composition.py:356-358 | `sorted_formula()` of YBa2Cu3O7, with its default `reduced=True`, is `Ba2Cu3O7Y`: the gcd is 1, so reducing changes nothing |
| `Doctests.HexExample` | pychemia/core/composition.py:458-459 | `0x38271d08` decodes to `[8, 29, 39, 56]`, which encodes back to it |
| `Doctests.FormulaToListExample` | pychemia/core/composition.py:316-317 | `formula_to_list('NaCl')` is `['Na', 'Cl']` |
| `Doctests.FormulaToListLengthExample` | pychemia/core/composition.py:321-323 | `formula_to_list('Uut2Uup3Uus4Uuo5', nunits=2)` has 28 entries |
| `Doctests.FormulaToListUnitsExample` | pychemia/core/composition.py:321-323 | `formula_to_list('Uut2Uup3Uus4Uuo5', nunits=2)` is 4 `Uut`, 6 `Uup`, 8 `Uus` and 10 `Uuo`, in that order |
| `Doctests.ZeroCountExample` | pychemia/core/composition.py:413-414 | a zero count is written without a number, so the round trip needs counts of at least 1 |

## Left out

- Dictionary iteration order: Dafny maps have no order. `values`, `species` and the loops over the dictionary use the sorted order of the keys instead. `natom`, `gcd` and `symbols` do not depend on that order.
- Compositions.Values: the counts come in the sorted order of the species, not in the dictionary's insertion order, for the reason above.
- `sortby='electroneg'`: it needs the electronegativity table and numpy's `argsort`. `Formula.SortByName` maps it to `None`.
- The `'Hill'` spelling that the docstring mentions selects the alphabetical order, because the code compares with `'hill'` and sends every other string to its final `else`. `Formula.SortByName` follows the code.
- SpeciesCode.SpeciesHex: returns the encoded number, not its hexadecimal text from `hex()`.
- SpeciesCode.GetSpeciesFromHex: takes the number that the hexadecimal text denotes. Parsing the text with `int(arg, 16)` is not modelled.
- SpeciesCode.AtomicNumbers: collects the atomic numbers into a set before sorting. When two species share a number in a table that is not one-to-one, `sorted` would keep both copies and the model keeps one. With a one-to-one table the two agree.
- SpeciesCode.SpeciesEncoded: the periodic table is a parameter. Its contents (`atomic_symbols`, `atomic_number`) are not part of this model.
- `covalent_volume`: it uses floating point and the covalent radii table.
- `__repr__`, `__str__`, `__len__`, `__iter__`, the `composition`, `species` and `nspecies` properties, and the `Mapping` base class: these are glue or text formatting with no logic beyond a map's keys.
- `deep_unicode`: there is one string type here.
- Character classes: `str.isupper`, `str.islower` and `str.isdigit` are restricted to ASCII. Python's Unicode-aware versions are not modelled.
- Counts: a count is a natural number. `_set_composition` also accepts negative integers, which the model cannot represent.
- The copy constructor `Composition(other)` is the identity on the dictionary and has no separate member.
- The regular expressions of `formula_to_list` are replaced by a scanner for the two patterns `[A-Z][a-z0-9]*` and `([A-Za-z]+)([0-9]*)`. No general regex engine is modelled.
- The `reduced=True` formula of a composition without atoms: under Python 3, `None > 1` raises. The model returns the `NoAtoms` error instead of modelling the exception.

=== FILE: compositions.dfy ===
/**
  A chemical composition: how many atoms of each species a structure holds.
  Models the `Composition` class of pychemia/core/composition.py apart from
  its formula text (module Formula) and species encoding (module SpeciesCode).
 */
module Compositions {
  import opened Wrappers
  import opened Symbols
  import opened Divisibility

  /** Species symbol to number of atoms of that species. */
  type Composition = map<string, nat>

  /** The periodic-table lookup the class consults: symbol to atomic number.
      Its keys are the accepted atomic symbols. */
  type PeriodicTable = map<string, nat>

  /** What the real table satisfies: atomic numbers fit one base-256 digit
      without being 0, and no two symbols share one. */
  ghost predicate ValidTable(table: PeriodicTable) {
    && (forall s | s in table :: 1 <= table[s] <= 255)
    && (forall a, b | a in table && b in table && a != b :: table[a] != table[b])
  }

  datatype Error =
    | NotASymbol  // `_set_composition` meets a key outside the atomic symbols
    | NoAtoms     // the reduced formula compares the gcd `None` with 1

  /** `_set_composition`: accept a dictionary whose keys are all atomic
      symbols; any other key fails the source's assertion. */
  function SetComposition(value: Composition, table: PeriodicTable): (r: Result<Composition, Error>)
    ensures r.Success? <==> value.Keys <= table.Keys
    ensures r.Success? ==> r.value == value
    ensures r.Failure? ==> r.error == NotASymbol
  {
    if forall s | s in value :: s in table then Success(value) else Failure(NotASymbol)
  }

  /** `Composition()`: no species at all. */
  function Empty(): (c: Composition)
    ensures forall s :: !Contains(c, s) && Get(c, s) == 0
    ensures Natom(c) == 0 && Gcd(c) == None
  {
    map[]
  }

  /** `__getitem__`: the count of a species, 0 when it is absent. */
  function Get(c: Composition, s: string): (n: nat)
    ensures Contains(c, s) ==> n == c[s]
    ensures !Contains(c, s) ==> n == 0
    ensures n > 0 ==> Contains(c, s)
  {
    if s in c then c[s] else 0
  }

  /** `__contains__`: whether the species is a key, that is, one of the
      listed species. */
  predicate Contains(c: Composition, s: string)
    ensures Contains(c, s) <==> s in SortedSymbols(c.Keys)
  {
    s in c
  }

  /** The dictionary built by the loop over an iterable of symbols: each
      symbol's number of occurrences. */
  function CountOccurrences(xs: seq<string>): (m: Composition)
    ensures forall s :: s in m <==> s in xs
    ensures forall s | s in m :: m[s] == multiset(xs)[s] && m[s] >= 1
    decreases |xs|
  {
    if |xs| == 0 then map[]
    else
      var front := xs[..|xs| - 1];
      var x := xs[|xs| - 1];
      assert xs == front + [x];
      var m := CountOccurrences(front);
      m[x := if x in m then m[x] + 1 else 1]
  }

  /** `Composition(list_of_symbols)`: counts the occurrences, then checks the keys. */
  function FromSymbolList(xs: seq<string>, table: PeriodicTable): (r: Result<Composition, Error>)
    ensures r.Success? <==> forall i | 0 <= i < |xs| :: xs[i] in table
    ensures r.Success? ==> forall s :: Get(r.value, s) == multiset(xs)[s]
  {
    SetComposition(CountOccurrences(xs), table)
  }

  /** The counts of `c` along the key sequence `ks`. */
  function CountsAlong(ks: seq<string>, c: Composition): (vs: seq<nat>)
    requires forall i | 0 <= i < |ks| :: ks[i] in c
    ensures |vs| == |ks|
    ensures forall i | 0 <= i < |ks| :: vs[i] == c[ks[i]]
  {
    seq(|ks|, i requires 0 <= i < |ks| => c[ks[i]])
  }

  /** `values`: the counts, in the order of the sorted species. */
  function Values(c: Composition): (vs: seq<nat>)
    ensures |vs| == |c|
    ensures forall i | 0 <= i < |vs| :: vs[i] == c[SortedSymbols(c.Keys)[i]]
  {
    CountsAlong(SortedSymbols(c.Keys), c)
  }

  function Sum(vs: seq<nat>): nat {
    if |vs| == 0 then 0 else vs[0] + Sum(vs[1..])
  }

  lemma {:induction false} SumZero(vs: seq<nat>)
    ensures Sum(vs) == 0 <==> forall i | 0 <= i < |vs| :: vs[i] == 0
  {
    if |vs| > 0 {
      SumZero(vs[1..]);
      assert forall i | 1 <= i < |vs| :: vs[i] == vs[1..][i - 1];
    }
  }

  /** `natom`: the total number of atoms. */
  function Natom(c: Composition): (n: nat)
    ensures n == 0 <==> forall s | s in c :: c[s] == 0
  {
    ValuesZero(c);
    SumZero(Values(c));
    Sum(Values(c))
  }

  /** The counts listed by `values` are all 0 exactly when every species has count 0. */
  lemma ValuesZero(c: Composition)
    ensures (forall i | 0 <= i < |Values(c)| :: Values(c)[i] == 0) <==> forall s | s in c :: c[s] == 0
  {
    var ks := SortedSymbols(c.Keys);
    var vs := Values(c);
    if forall i | 0 <= i < |vs| :: vs[i] == 0 {
      forall s | s in c
        ensures c[s] == 0
      {
        var i :| 0 <= i < |ks| && ks[i] == s;
        assert vs[i] == c[s];
      }
    }
  }

  /** `d` divides the count of every species. */
  ghost predicate CommonDivisor(d: nat, c: Composition) {
    forall s | s in c :: Divides(d, c[s])
  }

  lemma ValuesDivisors(d: nat, c: Composition)
    ensures DividesAll(d, Values(c)) <==> CommonDivisor(d, c)
  {
    var ks := SortedSymbols(c.Keys);
    if DividesAll(d, Values(c)) {
      forall s | s in c
        ensures Divides(d, c[s])
      {
        var i :| 0 <= i < |ks| && ks[i] == s;
      }
    }
  }

  /** `gcd`: `None` when there are no atoms, otherwise the greatest common
      divisor of the counts, which every other common divisor divides. */
  function Gcd(c: Composition): (r: Option<nat>)
    ensures r.None? <==> Natom(c) == 0
    ensures r.Some? ==> r.value > 0 && CommonDivisor(r.value, c)
    ensures r.Some? ==> forall d: nat :: CommonDivisor(d, c) ==> Divides(d, r.value)
  {
    if Natom(c) > 0 then
      var vs := Values(c);
      var g := GcdOf(vs);
      ValuesDivisors(g, c);
      assert forall d: nat :: CommonDivisor(d, c) ==> Divides(d, g) by {
        forall d: nat | CommonDivisor(d, c)
          ensures Divides(d, g)
        {
          ValuesDivisors(d, c);
        }
      }
      assert g != 0 by {
        var s :| s in c && c[s] != 0;
        var ks := SortedSymbols(c.Keys);
        var i :| 0 <= i < |ks| && ks[i] == s;
        assert vs[i] != 0;
      }
      Some(g)
    else
      None
  }

  /** A common divisor equal to one of the counts is the gcd. */
  lemma GcdIsCount(c: Composition, s: string, g: nat)
    requires s in c && c[s] == g && g > 0 && CommonDivisor(g, c)
    ensures Gcd(c) == Some(g)
  {
    GcdAtMostCount(c, s);
    GcdAtLeastDivisor(c, g);
    assert Gcd(c).value == g;
  }

  /** The gcd is no larger than any positive count. */
  lemma GcdAtMostCount(c: Composition, s: string)
    requires s in c && c[s] > 0
    ensures Gcd(c).Some? && Gcd(c).value <= c[s]
  {
    var h := Gcd(c).value;
    assert Divides(h, c[s]);
    DivisorBounded(h, c[s]);
  }

  /** The gcd is no smaller than any positive common divisor. */
  lemma GcdAtLeastDivisor(c: Composition, g: nat)
    requires Gcd(c).Some? && g > 0 && CommonDivisor(g, c)
    ensures g <= Gcd(c).value
  {
    var h := Gcd(c).value;
    assert Divides(g, h);
    DivisorBounded(g, h);
  }

  /** The copy whose every count is floor-divided by `g`. */
  function Divided(c: Composition, g: nat): (r: Composition)
    requires g > 0
    ensures r.Keys == c.Keys
    ensures forall s | s in c :: r[s] * g <= c[s] < r[s] * g + g
  {
    var r := map s | s in c :: c[s] / g;
    assert forall s | s in c :: r[s] * g <= c[s] < r[s] * g + g by {
      forall s | s in c
        ensures r[s] * g <= c[s] < r[s] * g + g
      {
        FloorQuotient(c[s], g);
      }
    }
    r
  }

  /** A gcd that is present is positive. */
  lemma GcdPositive(c: Composition)
    ensures Gcd(c).Some? ==> Gcd(c).value >= 1
  {
  }

  /** `n // g` is the largest multiple count of `g` not above `n`. */
  lemma FloorQuotient(n: nat, g: nat)
    requires g > 0
    ensures (n / g) * g <= n < (n / g) * g + g
  {
  }

  /** Dividing by a common divisor loses nothing: multiplying back restores every count. */
  lemma DividedRestores(c: Composition, g: nat)
    requires g > 0 && CommonDivisor(g, c)
    ensures forall s | s in c :: Divided(c, g)[s] * g == c[s]
  {
    forall s | s in c
      ensures Divided(c, g)[s] * g == c[s]
    {
      var k: nat :| c[s] == g * k;
      ExactQuotient(g, k);
    }
  }

  /** Reducing by the gcd leaves counts whose gcd is 1. */
  lemma ReducedHasUnitGcd(c: Composition)
    requires Natom(c) > 0
    ensures Gcd(Divided(c, Gcd(c).value)) == Some(1)
  {
    var g := Gcd(c).value;
    DividedHasAtoms(c, g);
    var h := Gcd(Divided(c, g)).value;
    OnlyUnitDividesQuotients(c, g, h);
  }

  /** Once the greatest common divisor `g` is divided out, 1 is the only
      common divisor left. */
  lemma OnlyUnitDividesQuotients(c: Composition, g: nat, h: nat)
    requires g > 0 && CommonDivisor(g, c)
    requires forall d: nat :: CommonDivisor(d, c) ==> Divides(d, g)
    requires CommonDivisor(h, Divided(c, g))
    ensures h == 1
  {
    var d: nat := h * g;
    ScaledCommonDivisor(c, g, h);
    assert CommonDivisor(d, c);
    assert Divides(d, g);
    UnitFactor(h, g);
  }

  lemma DividedHasAtoms(c: Composition, g: nat)
    requires Natom(c) > 0 && g > 0 && CommonDivisor(g, c)
    ensures Natom(Divided(c, g)) > 0
  {
    var s0 :| s0 in c && c[s0] != 0;
    var d := Divided(c, g);
    assert d[s0] != 0 by {
      DividedRestores(c, g);
      assert d[s0] * g == c[s0];
    }
    assert s0 in d;
  }

  lemma ScaledCommonDivisor(c: Composition, g: nat, h: nat)
    requires g > 0 && CommonDivisor(g, c) && CommonDivisor(h, Divided(c, g))
    ensures CommonDivisor(h * g, c)
  {
    forall s | s in c
      ensures Divides(h * g, c[s])
    {
      assert Divided(c, g)[s] == c[s] / g;
      ScaledDivisor(h, g, c[s]);
    }
  }

  /** `n` copies of `x`. */
  function Repeat(x: string, n: nat): (r: seq<string>)
    ensures |r| == n
    ensures forall i | 0 <= i < n :: r[i] == x
  {
    if n == 0 then [] else [x] + Repeat(x, n - 1)
  }

  /** Each key of `ks` repeated as many times as its count, in order. */
  function Expand(ks: seq<string>, c: Composition): seq<string>
    requires forall i | 0 <= i < |ks| :: ks[i] in c
  {
    if |ks| == 0 then [] else Repeat(ks[0], c[ks[0]]) + Expand(ks[1..], c)
  }

  function SumAlong(ks: seq<string>, c: Composition): nat
    requires forall i | 0 <= i < |ks| :: ks[i] in c
  {
    if |ks| == 0 then 0 else c[ks[0]] + SumAlong(ks[1..], c)
  }

  lemma ExpandFacts(ks: seq<string>, c: Composition)
    requires forall i | 0 <= i < |ks| :: ks[i] in c
    requires StrictlySorted(ks)
    ensures |Expand(ks, c)| == SumAlong(ks, c)
    ensures forall s :: multiset(Expand(ks, c))[s] == if s in ks then c[s] else 0
    ensures Sorted(Expand(ks, c))
  {
    ExpandLength(ks, c);
    ExpandCount(ks, c);
    ExpandSorted(ks, c);
  }

  lemma {:induction false} ExpandLength(ks: seq<string>, c: Composition)
    requires forall i | 0 <= i < |ks| :: ks[i] in c
    ensures |Expand(ks, c)| == SumAlong(ks, c)
  {
    if |ks| > 0 {
      ExpandLength(ks[1..], c);
    }
  }

  lemma {:induction false} ExpandMembers(ks: seq<string>, c: Composition)
    requires forall i | 0 <= i < |ks| :: ks[i] in c
    ensures forall x | x in Expand(ks, c) :: x in ks
  {
    if |ks| > 0 {
      ExpandMembers(ks[1..], c);
      assert Expand(ks, c) == Repeat(ks[0], c[ks[0]]) + Expand(ks[1..], c);
    }
  }

  lemma {:induction false} ExpandCount(ks: seq<string>, c: Composition)
    requires forall i | 0 <= i < |ks| :: ks[i] in c
    requires Distinct(ks)
    ensures forall s :: multiset(Expand(ks, c))[s] == if s in ks then c[s] else 0
  {
    if |ks| > 0 {
      var tail := ks[1..];
      assert Distinct(tail);
      ExpandCount(tail, c);
      var head := Repeat(ks[0], c[ks[0]]);
      assert Expand(ks, c) == head + Expand(tail, c);
      assert ks[0] !in tail;
      forall s
        ensures multiset(head)[s] == if s == ks[0] then c[ks[0]] else 0
      {
        RepeatCount(ks[0], c[ks[0]], s);
      }
    }
  }

  lemma {:induction false} ExpandSorted(ks: seq<string>, c: Composition)
    requires forall i | 0 <= i < |ks| :: ks[i] in c
    requires StrictlySorted(ks)
    ensures Sorted(Expand(ks, c))
  {
    if |ks| > 0 {
      var tail := ks[1..];
      ExpandSorted(tail, c);
      ExpandMembers(tail, c);
      var head := Repeat(ks[0], c[ks[0]]);
      var e := Expand(tail, c);
      assert Expand(ks, c) == head + e;
      forall i, j | 0 <= i < j < |head + e|
        ensures Below((head + e)[i], (head + e)[j])
      {
        if j < |head| {
          BelowReflexive(ks[0]);
        } else if i < |head| {
          assert e[j - |head|] in tail;
        }
      }
    }
  }

  lemma {:induction false} RepeatCount(x: string, n: nat, s: string)
    ensures multiset(Repeat(x, n))[s] == if s == x then n else 0
  {
    if n > 0 {
      RepeatCount(x, n - 1, s);
    }
  }

  lemma {:induction false} SumAlongValues(ks: seq<string>, c: Composition)
    requires forall i | 0 <= i < |ks| :: ks[i] in c
    ensures SumAlong(ks, c) == Sum(CountsAlong(ks, c))
  {
    if |ks| > 0 {
      SumAlongValues(ks[1..], c);
      assert CountsAlong(ks, c)[1..] == CountsAlong(ks[1..], c);
    }
  }

  /** `symbols`: the sorted list holding each species as many times as its count. */
  function SymbolList(c: Composition): (r: seq<string>)
    ensures Sorted(r)
    ensures forall s :: multiset(r)[s] == Get(c, s)
    ensures |r| == Natom(c)
  {
    SortedExpandCount(c);
    SortedExpandLength(c);
    Expand(SortedSymbols(c.Keys), c)
  }

  /** Expanding along the sorted species gives a sorted list holding each
      species as often as its count. */
  lemma SortedExpandCount(c: Composition)
    ensures Sorted(Expand(SortedSymbols(c.Keys), c))
    ensures forall s :: multiset(Expand(SortedSymbols(c.Keys), c))[s] == Get(c, s)
  {
    var ks := SortedSymbols(c.Keys);
    ExpandFacts(ks, c);
    forall s
      ensures multiset(Expand(ks, c))[s] == Get(c, s)
    {
      assert s in ks <==> s in c;
    }
  }

  /** Expanding along the sorted species gives `natom` symbols. */
  lemma SortedExpandLength(c: Composition)
    ensures |Expand(SortedSymbols(c.Keys), c)| == Natom(c)
  {
    var ks := SortedSymbols(c.Keys);
    ExpandLength(ks, c);
    SumAlongValues(ks, c);
  }

  /** A composition built from a list of symbols lists exactly those symbols
      back, sorted, and has as many atoms as the list has entries. */
  lemma SymbolListOfCounted(xs: seq<string>)
    ensures multiset(SymbolList(CountOccurrences(xs))) == multiset(xs)
    ensures Natom(CountOccurrences(xs)) == |xs|
  {
    var c := CountOccurrences(xs);
    var r := SymbolList(c);
    SameMultiplicities(r, xs, c);
    assert |multiset(r)| == |r| && |multiset(xs)| == |xs|;
  }

  lemma SameMultiplicities(r: seq<string>, xs: seq<string>, c: Composition)
    requires forall s :: multiset(r)[s] == Get(c, s)
    requires forall s :: Get(c, s) == multiset(xs)[s]
    ensures multiset(r) == multiset(xs)
  {
    assert forall s :: multiset(r)[s] == multiset(xs)[s];
  }

  /** `__contains__` agrees with a positive `__getitem__` on compositions
      built from a list of symbols. */
  lemma ContainsIffPositive(xs: seq<string>, s: string)
    ensures Contains(CountOccurrences(xs), s) <==> Get(CountOccurrences(xs), s) > 0
    ensures Contains(CountOccurrences(xs), s) <==> s in xs
  {
  }
}

=== FILE: divisibility.dfy ===
/**
  Divisibility and Python's `math.gcd`, together with the `reduce(gcd, values)`
  fold the composition uses for its gcd.
 */
module Divisibility {

  /** `d` divides `n`: some natural `k` has `n == d * k` (so 0 divides only 0). */
  ghost predicate Divides(d: nat, n: nat) {
    exists k: nat :: n == d * k
  }

  lemma DividesZero(d: nat)
    ensures Divides(d, 0)
  {
    assert 0 == d * 0;
  }

  lemma DividesSelf(d: nat)
    ensures Divides(d, d)
  {
    assert d == d * 1;
  }

  /** A positive multiple is at least its divisor. */
  lemma DivisorBounded(d: nat, n: nat)
    requires Divides(d, n) && n > 0
    ensures 0 < d <= n
  {
    var k: nat :| n == d * k;
    assert k >= 1;
  }

  /** If `d` divides `b` and `r`, it divides `q * b + r`. */
  lemma DividesCombination(d: nat, b: nat, q: nat, r: nat)
    requires Divides(d, b) && Divides(d, r)
    ensures Divides(d, q * b + r)
  {
    var i: nat :| b == d * i;
    var j: nat :| r == d * j;
    assert q * b + r == d * (q * i + j);
  }

  /** A common divisor of `a` and `b > 0` divides `a % b`. */
  lemma DividesRemainder(d: nat, a: nat, b: nat)
    requires b > 0 && Divides(d, a) && Divides(d, b)
    ensures Divides(d, a % b)
  {
    var i: nat :| a == d * i;
    var k: nat :| b == d * k;
    var q := a / b;
    assert a == q * b + a % b;
    assert a % b == d * (i - q * k);
    if d == 0 {
      assert a % b == 0;
    } else {
      assert d * (i - q * k) >= 0;
      assert i - q * k >= 0;
    }
  }

  /** `math.gcd` on naturals, by Euclid's algorithm; `gcd(0, 0) == 0`. */
  function Gcd(a: nat, b: nat): (g: nat)
    ensures Divides(g, a) && Divides(g, b)
    ensures forall d: nat :: Divides(d, a) && Divides(d, b) ==> Divides(d, g)
    ensures g == 0 <==> a == 0 && b == 0
    decreases b
  {
    if b == 0 then
      DividesSelf(a);
      DividesZero(a);
      a
    else
      var g := Gcd(b, a % b);
      DividesCombination(g, b, a / b, a % b);
      assert a == (a / b) * b + a % b;
      assert forall d: nat :: Divides(d, a) && Divides(d, b) ==> Divides(d, a % b) by {
        forall d: nat | Divides(d, a) && Divides(d, b)
          ensures Divides(d, a % b)
        {
          DividesRemainder(d, a, b);
        }
      }
      g
  }

  /** `d` divides every element of `vs`. */
  ghost predicate DividesAll(d: nat, vs: seq<nat>) {
    forall i | 0 <= i < |vs| :: Divides(d, vs[i])
  }

  /** `reduce(math.gcd, vs)` for a non-empty list: a left fold seeded with the first element. */
  function GcdOf(vs: seq<nat>): (g: nat)
    requires |vs| > 0
    ensures DividesAll(g, vs)
    ensures forall d: nat :: DividesAll(d, vs) ==> Divides(d, g)
    ensures g == 0 <==> forall i | 0 <= i < |vs| :: vs[i] == 0
    decreases |vs|
  {
    if |vs| == 1 then
      DividesSelf(vs[0]);
      vs[0]
    else
      var front := vs[..|vs| - 1];
      var g := Gcd(GcdOf(front), vs[|vs| - 1]);
      assert forall i | 0 <= i < |vs| - 1 :: vs[i] == front[i];
      assert DividesAll(g, vs) by {
        forall i | 0 <= i < |vs|
          ensures Divides(g, vs[i])
        {
          if i < |vs| - 1 {
            DividesTransitive(g, GcdOf(front), vs[i]);
          }
        }
      }
      g
  }

  lemma DividesTransitive(a: nat, b: nat, c: nat)
    requires Divides(a, b) && Divides(b, c)
    ensures Divides(a, c)
  {
    var i: nat :| b == a * i;
    var j: nat :| c == b * j;
    assert c == a * (i * j);
  }

  /** Dividing out a common divisor `g > 0` leaves quotients whose common
      divisors `d` make `d * g` a common divisor of the originals. */
  lemma ScaledDivisor(d: nat, g: nat, v: nat)
    requires g > 0 && Divides(g, v) && Divides(d, v / g)
    ensures Divides(d * g, v)
  {
    var i: nat :| v == g * i;
    ExactQuotient(g, i);
    var j: nat :| i == d * j;
    assert v == g * (d * j);
    assert g * (d * j) == (d * g) * j;
  }

  lemma ExactQuotient(g: nat, i: nat)
    requires g > 0
    ensures (g * i) / g == i
  {
    var q := (g * i) / g;
    var r := (g * i) % g;
    assert g * i == q * g + r && 0 <= r < g;
    var e := i - q;
    assert g * e == r by {
      assert g * e == g * i - g * q;
    }
    if e >= 1 {
      MulAtLeast(g, e);
    }
  }

  lemma MulAtLeast(g: nat, e: int)
    requires g > 0 && e >= 1
    ensures g * e >= g
  {
    assert g * e == g + g * (e - 1);
  }

  /** The only natural whose product with a positive `g` divides `g` is 1. */
  lemma UnitFactor(d: nat, g: nat)
    requires g > 0 && Divides(d * g, g)
    ensures d == 1
  {
    var k: nat :| g == (d * g) * k;
    assert g * (d * k) == g * 1;
    assert d * k == 1;
  }
}

=== FILE: doctests.dfy ===
/**
  Worked examples about the model: most are the examples in the docstrings
  of pychemia/core/composition.py, the rest exercise a branch of the code
  (an overwritten count, skipped characters, a zero count, the gcd steps).
 */
module Doctests {
  import opened Wrappers
  import opened Symbols
  import opened Compositions
  import opened Formula
  import opened SpeciesCode
  import Divisibility

  lemma GoldExample()
    ensures FormulaParser("Au20") == map["Au" := 20]
  {
    assert "Au20" == "Au" + "20" + "";
    assert DecimalValue("2") == 2 by {
      assert "2"[..0] == "";
    }
    assert DecimalValue("20") == 20 by {
      assert "20"[..1] == "2";
    }
    ScanSpecies("Au", "20", "", map[]);
  }

  /** Three-letter symbols without counts. */
  lemma ThreeLetterExample()
    ensures FormulaParser("UutUupUusUuo") == map["Uut" := 1, "Uup" := 1, "Uus" := 1, "Uuo" := 1]
  {
    var c := map["Uut" := 1, "Uup" := 1, "Uus" := 1, "Uuo" := 1];
    ThreeLetterText();
    ParseRender(["Uut", "Uup", "Uus", "Uuo"], c);
  }

  lemma ThreeLetterText()
    ensures Render(["Uut", "Uup", "Uus", "Uuo"], map["Uut" := 1, "Uup" := 1, "Uus" := 1, "Uuo" := 1]) == "UutUupUusUuo"
  {
    var order := ["Uut", "Uup", "Uus", "Uuo"];
    assert order[1..][1..][1..][1..] == [];
  }

  /** Leading zeros in a count are ignored. */
  lemma LeadingZeroExample()
    ensures FormulaParser("S04H2") == map["S" := 4, "H" := 2]
  {
    assert Scan("H2", map["S" := 4]) == map["S" := 4, "H" := 2] by {
      assert "H2" == "H" + "2" + "";
      ScanSpecies("H", "2", "", map["S" := 4]);
    }
    assert Scan("S04H2", map[]) == Scan("H2", map["S" := 4]) by {
      assert "S04H2" == "S" + "04" + "H2";
      assert CountOf("04") == 4 by {
        assert "04"[..1] == "0";
      }
      ScanSpecies("S", "04", "H2", map[]);
    }
  }

  /** A species written twice keeps the count of its last occurrence. */
  lemma OverwriteExample()
    ensures FormulaParser("H2OH3") == map["H" := 3, "O" := 1]
  {
    OverwriteFirst();
    OverwriteSecond();
    OverwriteThird();
  }

  lemma OverwriteFirst()
    ensures Scan("H2OH3", map[]) == Scan("OH3", map["H" := 2])
  {
    assert CountOf("2") == 2 by {
      assert "2"[..0] == "";
    }
    assert "H2OH3" == "H" + "2" + "OH3";
    ScanSpecies("H", "2", "OH3", map[]);
  }

  lemma OverwriteSecond()
    ensures Scan("OH3", map["H" := 2]) == Scan("H3", map["H" := 2, "O" := 1])
  {
    assert "OH3" == "O" + "" + "H3";
    ScanSpecies("O", "", "H3", map["H" := 2]);
  }

  lemma OverwriteThird()
    ensures Scan("H3", map["H" := 2, "O" := 1]) == map["H" := 3, "O" := 1]
  {
    assert CountOf("3") == 3 by {
      assert "3"[..0] == "";
    }
    assert "H3" == "H" + "3" + "";
    ScanSpecies("H", "3", "", map["H" := 2, "O" := 1]);
    assert map["H" := 2, "O" := 1]["H" := 3] == map["H" := 3, "O" := 1];
  }

  /** Characters that start no species, such as parentheses, are skipped, and
      a count after them is not read: `'Fe2(SO4)3'` gives one sulfur and four oxygens. */
  lemma ParenthesesExample()
    ensures FormulaParser("Fe2(SO4)3") == map["Fe" := 2, "S" := 1, "O" := 4]
  {
    ParenthesesIron();
    ParenthesesSulfur();
    ParenthesesOxygen();
    ParenthesesClose();
    assert map["Fe" := 2, "S" := 1]["O" := 4] == map["Fe" := 2, "S" := 1, "O" := 4];
  }

  lemma ParenthesesIron()
    ensures Scan("Fe2(SO4)3", map[]) == Scan("SO4)3", map["Fe" := 2])
  {
    assert CountOf("2") == 2 by {
      assert "2"[..0] == "";
    }
    assert "Fe2(SO4)3" == "Fe" + "2" + "(SO4)3";
    ScanSpecies("Fe", "2", "(SO4)3", map[]);
    assert "(SO4)3"[1..] == "SO4)3";
  }

  lemma ParenthesesSulfur()
    ensures Scan("SO4)3", map["Fe" := 2]) == Scan("O4)3", map["Fe" := 2, "S" := 1])
  {
    assert "SO4)3" == "S" + "" + "O4)3";
    ScanSpecies("S", "", "O4)3", map["Fe" := 2]);
  }

  lemma ParenthesesOxygen()
    ensures Scan("O4)3", map["Fe" := 2, "S" := 1]) == Scan(")3", map["Fe" := 2, "S" := 1, "O" := 4])
  {
    assert CountOf("4") == 4 by {
      assert "4"[..0] == "";
    }
    assert "O4)3" == "O" + "4" + ")3";
    ScanSpecies("O", "4", ")3", map["Fe" := 2, "S" := 1]);
  }

  lemma ParenthesesClose()
    ensures Scan(")3", map["Fe" := 2, "S" := 1, "O" := 4]) == map["Fe" := 2, "S" := 1, "O" := 4]
  {
    var m := map["Fe" := 2, "S" := 1, "O" := 4];
    assert ")3"[1..] == "3";
    assert "3" == "3" + "";
    ScanSkipsDigits("3", "", m);
  }

  /** `Composition(['O', 'H', 'O'])` counts two oxygens and one hydrogen. */
  lemma CountingExample()
    ensures CountOccurrences(["O", "H", "O"]) == map["O" := 2, "H" := 1]
  {
    var xs := ["O", "H", "O"];
    var m := CountOccurrences(xs);
    assert multiset(xs)["O"] == 2 && multiset(xs)["H"] == 1;
    assert "O" in m && "H" in m;
    assert m.Keys == {"O", "H"};
  }

  /** NaCl has gcd 1. */
  lemma GcdOneExample()
    ensures Gcd(map["Na" := 1, "Cl" := 1]) == Some(1)
  {
    var c := map["Na" := 1, "Cl" := 1];
    assert CommonDivisor(1, c) by {
      assert 1 == 1 * 1;
    }
    GcdIsCount(c, "Na", 1);
  }

  /** Na2Cl2 has gcd 2. */
  lemma GcdTwoExample()
    ensures Gcd(map["Na" := 2, "Cl" := 2]) == Some(2)
  {
    var c := map["Na" := 2, "Cl" := 2];
    assert CommonDivisor(2, c) by {
      assert 2 == 2 * 1;
    }
    GcdIsCount(c, "Na", 2);
  }

  /** A composition without species has no gcd and no formula. */
  lemma EmptyExample()
    ensures Gcd(Empty()) == None
    ensures FormulaText(Empty()).Failure?
  {
  }

  /** C5H10 has gcd 5. */
  lemma ReduceExample()
    ensures Gcd(map["C" := 5, "H" := 10]) == Some(5)
  {
    var c := map["C" := 5, "H" := 10];
    assert CommonDivisor(5, c) by {
      assert 5 == 5 * 1 && 10 == 5 * 2;
    }
    GcdIsCount(c, "C", 5);
  }

  /** Dividing C5H10 by 5 leaves one carbon and two hydrogens. */
  lemma DivideExample()
    ensures Divided(map["C" := 5, "H" := 10], 5) == map["C" := 1, "H" := 2]
  {
    var c := map["C" := 5, "H" := 10];
    var d := Divided(c, 5);
    var e := map["C" := 1, "H" := 2];
    assert d.Keys == e.Keys;
    assert d["C"] == e["C"] && d["H"] == e["H"];
  }

  /** The reduced Hill formula of C5H10 is CH2. */
  lemma HillReducedExample()
    ensures SortedFormula(map["C" := 5, "H" := 10], Hill, true) == Success("CH2")
  {
    ReduceExample();
    DivideExample();
    ReducedFormulaOf(map["C" := 5, "H" := 10], 5, map["C" := 1, "H" := 2], Hill);
    HillPairText();
  }

  lemma HillPairText()
    ensures Render(Order(map["C" := 1, "H" := 2].Keys, Hill), map["C" := 1, "H" := 2]) == "CH2"
  {
    var d := map["C" := 1, "H" := 2];
    assert d.Keys == {"C", "H"};
    var order := HillOrder({"C", "H"});
    assert order[0] == "C" && order[1] == "H" && |order| == 2;
    assert order == ["C", "H"];
    assert Render(["H"], d) == "H2" by {
      assert Decimal(2) == "2";
      assert Render(["H"][1..], d) == "";
    }
    assert Render(["C", "H"], d) == "CH2" by {
      assert ["C", "H"][1..] == ["H"];
    }
  }

  /** The Hill order puts carbon, then hydrogen, before the rest: IH3C is CH3I. */
  lemma HillOrderExample()
    ensures SortedFormula(map["I" := 1, "H" := 3, "C" := 1], Hill, false) == Success("CH3I")
  {
    UnreducedFormulaText(map["I" := 1, "H" := 3, "C" := 1], Hill);
    HillTripleOrder();
    TripleRender();
  }

  lemma HillTripleOrder()
    ensures Order(map["I" := 1, "H" := 3, "C" := 1].Keys, Hill) == ["C", "H", "I"]
  {
    TripleKeys();
    HillOrderOfIodide();
  }

  lemma HillOrderOfIodide()
    ensures HillOrder({"C", "H", "I"}) == ["C", "H", "I"]
  {
    assert !Leading("I");
    HillOrderOfThree("I");
  }

  lemma TripleKeys()
    ensures map["I" := 1, "H" := 3, "C" := 1].Keys == {"C", "H", "I"}
  {
  }

  lemma TripleRender()
    ensures Render(["C", "H", "I"], map["I" := 1, "H" := 3, "C" := 1]) == "CH3I"
  {
    var c := map["I" := 1, "H" := 3, "C" := 1];
    assert Render(["I"], c) == "I" by {
      assert Render(["I"][1..], c) == "";
    }
    assert Render(["H", "I"], c) == "H3I" by {
      assert Decimal(3) == "3";
      assert ["H", "I"][1..] == ["I"];
    }
    assert Render(["C", "H", "I"], c) == "CH3I" by {
      assert ["C", "H", "I"][1..] == ["H", "I"];
    }
  }

  /** Hydrogen leads when there is no carbon: S4H2 is H2S4. */
  lemma HillWithoutCarbonExample()
    ensures SortedFormula(map["S" := 4, "H" := 2], Hill, false) == Success("H2S4")
  {
    var c := map["S" := 4, "H" := 2];
    UnreducedFormulaText(c, Hill);
    HillPairOrder();
    HydrogenSulfurRender();
  }

  lemma HillPairOrder()
    ensures Order(map["S" := 4, "H" := 2].Keys, Hill) == ["H", "S"]
  {
    PairKeys();
    HillOrderOfHydrogenAnd("S");
  }

  lemma PairKeys()
    ensures map["S" := 4, "H" := 2].Keys == {"H", "S"}
  {
  }

  lemma HydrogenSulfurRender()
    ensures Render(["H", "S"], map["S" := 4, "H" := 2]) == "H2S4"
  {
    var c := map["S" := 4, "H" := 2];
    assert Render(["S"], c) == "S4" by {
      assert Decimal(4) == "4";
      assert Render(["S"][1..], c) == "";
    }
    assert Render(["H", "S"], c) == "H2" + Render(["S"], c) by {
      assert Decimal(2) == "2";
      assert ["H", "S"][1..] == ["S"];
    }
    assert "H2" + "S4" == "H2S4";
  }

  /** Sorting the species of YBa2Cu3O7. */
  lemma AlphaOrderExample()
    ensures SortedSymbols({"Y", "Ba", "Cu", "O"}) == ["Ba", "Cu", "O", "Y"]
  {
    var order := ["Ba", "Cu", "O", "Y"];
    assert StrictlySorted(order) by {
      forall i, j | 0 <= i < j < |order|
        ensures Below(order[i], order[j]) && order[i] != order[j]
      {
        assert order[i][0] < order[j][0];
      }
    }
    StrictlySortedUnique(SortedSymbols({"Y", "Ba", "Cu", "O"}), order);
  }

  /** The alphabetical formula of YBa2Cu3O7 is Ba2Cu3O7Y: `sorted_formula()`
      reduces by default, and the gcd is 1, so reducing changes nothing. */
  lemma AlphaExample()
    ensures SortedFormula(map["Y" := 1, "Ba" := 2, "Cu" := 3, "O" := 7], Alpha, true) == Success("Ba2Cu3O7Y")
  {
    var c := map["Y" := 1, "Ba" := 2, "Cu" := 3, "O" := 7];
    AlphaUnreduced();
    AlphaGcd();
    ReducedUnitFormula(c, Alpha);
  }

  lemma AlphaUnreduced()
    ensures SortedFormula(map["Y" := 1, "Ba" := 2, "Cu" := 3, "O" := 7], Alpha, false) == Success("Ba2Cu3O7Y")
  {
    var c := map["Y" := 1, "Ba" := 2, "Cu" := 3, "O" := 7];
    assert c.Keys == {"Y", "Ba", "Cu", "O"};
    UnreducedFormulaText(c, Alpha);
    AlphaOrderExample();
    AlphaText();
  }

  /** YBa2Cu3O7 has gcd 1. */
  lemma AlphaGcd()
    ensures Gcd(map["Y" := 1, "Ba" := 2, "Cu" := 3, "O" := 7]) == Some(1)
  {
    var c := map["Y" := 1, "Ba" := 2, "Cu" := 3, "O" := 7];
    forall s | s in c
      ensures Divisibility.Divides(1, c[s])
    {
      assert c[s] == 1 * c[s];
    }
    GcdIsCount(c, "Y", 1);
  }

  lemma AlphaText()
    ensures Render(["Ba", "Cu", "O", "Y"], map["Y" := 1, "Ba" := 2, "Cu" := 3, "O" := 7]) == "Ba2Cu3O7Y"
  {
    var c := map["Y" := 1, "Ba" := 2, "Cu" := 3, "O" := 7];
    assert Render(["Y"], c) == "Y" by {
      assert Render(["Y"][1..], c) == "";
    }
    assert Render(["O", "Y"], c) == "O7Y" by {
      assert Decimal(7) == "7";
      assert ["O", "Y"][1..] == ["Y"];
    }
    assert Render(["Cu", "O", "Y"], c) == "Cu3O7Y" by {
      assert Decimal(3) == "3";
      assert ["Cu", "O", "Y"][1..] == ["O", "Y"];
    }
    assert Render(["Ba", "Cu", "O", "Y"], c) == "Ba2Cu3O7Y" by {
      assert Decimal(2) == "2";
      assert ["Ba", "Cu", "O", "Y"][1..] == ["Cu", "O", "Y"];
    }
  }

  /** The species number 0x38271d08 stands for atomic numbers 8, 29, 39, 56. */
  lemma HexExample()
    ensures Digits(0x38271d08) == [8, 29, 39, 56]
    ensures Encode([8, 29, 39, 56], 256) == 0x38271d08
  {
    DigitsStep(0x38, 0x38, 0);
    DigitsStep(0x3827, 0x27, 0x38);
    DigitsStep(0x38271d, 0x1d, 0x3827);
    DigitsStep(0x38271d08, 0x08, 0x38271d);
    HexEncode();
  }

  lemma DigitsStep(num: int, digit: nat, next: int)
    requires num > 0 && num % 256 == digit && (num - digit) / 256 == next
    ensures Digits(num) == [digit] + Digits(next)
  {
  }

  lemma HexEncode()
    ensures Encode([8, 29, 39, 56], 256) == 0x38271d08
  {
    var zs := [8, 29, 39, 56];
    assert Encode(zs[3..], 256) == 56 by {
      assert zs[3..][1..] == [];
    }
    assert zs[2..][1..] == zs[3..] && zs[1..][1..] == zs[2..];
    assert Encode(zs[2..], 256) == 39 + 256 * 56;
    assert Encode(zs[1..], 256) == 29 + 256 * (39 + 256 * 56);
  }

  /** `formula_to_list` expands NaCl into one Na and one Cl. */
  lemma FormulaToListExample()
    ensures FormulaToList("NaCl", 1) == ["Na", "Cl"]
  {
    var c := map["Na" := 1, "Cl" := 1];
    var order := ["Na", "Cl"];
    NaClText();
    NaClWritable();
    ExpandRender(order, c);
    NaClExpand();
  }

  lemma NaClText()
    ensures Render(["Na", "Cl"], map["Na" := 1, "Cl" := 1]) == "NaCl"
  {
    var order := ["Na", "Cl"];
    assert order[1..][1..] == [];
  }

  lemma NaClWritable()
    ensures Writable(map["Na" := 1, "Cl" := 1])
  {
    var c := map["Na" := 1, "Cl" := 1];
    assert c.Keys == {"Na", "Cl"};
  }

  lemma NaClExpand()
    ensures Expand(["Na", "Cl"], map["Na" := 1, "Cl" := 1]) == ["Na", "Cl"]
  {
    var order := ["Na", "Cl"];
    assert Repeat("Na", 1) == ["Na"] && Repeat("Cl", 1) == ["Cl"];
    assert order[1..][1..] == [];
  }

  /** A species with no atoms is written without a count, so it reads back
      as one atom: the round trip needs every count to be at least 1. */
  lemma ZeroCountExample()
    ensures SortedFormula(map["H" := 0], Alpha, false) == Success("H")
    ensures FormulaParser("H") == map["H" := 1]
  {
    var c := map["H" := 0];
    UnreducedFormulaText(c, Alpha);
    assert SortedSymbols(c.Keys) == ["H"] by {
      assert c.Keys == {"H"};
    }
    assert Render(["H"], c) == "H" by {
      assert Render(["H"][1..], c) == "";
    }
    assert "H" == "H" + "" + "";
    ScanSpecies("H", "", "", map[]);
  }

  /** `formula_to_list('Uut2Uup3Uus4Uuo5', nunits=2)` has 28 entries. */
  lemma FormulaToListLengthExample()
    ensures |FormulaToList("Uut2Uup3Uus4Uuo5", 2)| == 28
  {
    SuperheavyCountSum();
    FormulaToListLength("Uut2Uup3Uus4Uuo5", 2);
  }

  /** `formula_to_list('Uut2Uup3Uus4Uuo5', nunits=2)` holds 4 `Uut`, 6 `Uup`,
      8 `Uus` and 10 `Uuo`, in that order. */
  lemma FormulaToListUnitsExample()
    ensures FormulaToList("Uut2Uup3Uus4Uuo5", 2)
      == Repeat("Uut", 4) + (Repeat("Uup", 6) + (Repeat("Uus", 8) + (Repeat("Uuo", 10) + [])))
  {
    var c := map["Uut" := 2, "Uup" := 3, "Uus" := 4, "Uuo" := 5];
    var order := ["Uut", "Uup", "Uus", "Uuo"];
    SuperheavyWritable();
    SuperheavyText();
    FormulaToListOfRender(order, c, 2);
    SuperheavyGroups();
  }

  lemma SuperheavyGroups()
    ensures Grouped(["Uut", "Uup", "Uus", "Uuo"], map["Uut" := 2, "Uup" := 3, "Uus" := 4, "Uuo" := 5], 2)
      == Repeat("Uut", 4) + (Repeat("Uup", 6) + (Repeat("Uus", 8) + (Repeat("Uuo", 10) + [])))
  {
    var order := ["Uut", "Uup", "Uus", "Uuo"];
    assert order[1..] == ["Uup", "Uus", "Uuo"];
    assert order[1..][1..] == ["Uus", "Uuo"];
    assert order[1..][1..][1..] == ["Uuo"];
    assert order[1..][1..][1..][1..] == [];
  }

  lemma SuperheavyCountSum()
    ensures CountSum(Entries("Uut2Uup3Uus4Uuo5")) == 14
  {
    SuperheavyCounts();
    CountSumOfFour(Entries("Uut2Uup3Uus4Uuo5"));
  }

  /** The four matches of `'Uut2Uup3Uus4Uuo5'` carry the counts 2, 3, 4 and 5. */
  lemma SuperheavyCounts()
    ensures var es := Entries("Uut2Uup3Uus4Uuo5");
      |es| == 4 && es[0].count == 2 && es[1].count == 3 && es[2].count == 4 && es[3].count == 5
  {
    var c := map["Uut" := 2, "Uup" := 3, "Uus" := 4, "Uuo" := 5];
    var order := ["Uut", "Uup", "Uus", "Uuo"];
    SuperheavyWritable();
    SuperheavyText();
    EntriesOfRender(order, c);
    var es := Entries(Render(order, c));
    assert es[0] == Entry(order[0], c[order[0]]);
    assert es[1] == Entry(order[1], c[order[1]]);
    assert es[2] == Entry(order[2], c[order[2]]);
    assert es[3] == Entry(order[3], c[order[3]]);
  }

  lemma SuperheavyWritable()
    ensures Writable(map["Uut" := 2, "Uup" := 3, "Uus" := 4, "Uuo" := 5])
  {
    var c := map["Uut" := 2, "Uup" := 3, "Uus" := 4, "Uuo" := 5];
    assert c.Keys == {"Uut", "Uup", "Uus", "Uuo"};
  }

  lemma CountSumOfFour(es: seq<Entry>)
    requires |es| == 4
    ensures CountSum(es) == es[0].count + es[1].count + es[2].count + es[3].count
  {
    assert CountSum(es[3..]) == es[3].count by {
      assert es[3..][1..] == [];
    }
    assert es[2..][1..] == es[3..] && es[1..][1..] == es[2..];
    assert CountSum(es[2..]) == es[2].count + CountSum(es[3..]);
    assert CountSum(es[1..]) == es[1].count + CountSum(es[2..]);
  }

  lemma SuperheavyText()
    ensures Render(["Uut", "Uup", "Uus", "Uuo"], map["Uut" := 2, "Uup" := 3, "Uus" := 4, "Uuo" := 5]) == "Uut2Uup3Uus4Uuo5"
  {
    var c := map["Uut" := 2, "Uup" := 3, "Uus" := 4, "Uuo" := 5];
    var order := ["Uut", "Uup", "Uus", "Uuo"];
    SuperheavyMiddle();
    assert order[1..] == ["Uup", "Uus", "Uuo"];
    assert Token("Uut", 2) == "Uut2" by {
      assert Decimal(2) == "2";
    }
    assert Render(order, c) == Token("Uut", 2) + Render(order[1..], c);
    assert "Uut2" + "Uup3Uus4Uuo5" == "Uut2Uup3Uus4Uuo5";
  }

  lemma SuperheavyMiddle()
    ensures Render(["Uup", "Uus", "Uuo"], map["Uut" := 2, "Uup" := 3, "Uus" := 4, "Uuo" := 5]) == "Uup3Uus4Uuo5"
  {
    var c := map["Uut" := 2, "Uup" := 3, "Uus" := 4, "Uuo" := 5];
    var order := ["Uup", "Uus", "Uuo"];
    SuperheavyTail();
    assert order[1..] == ["Uus", "Uuo"];
    assert Token("Uup", 3) == "Uup3" by {
      assert Decimal(3) == "3";
    }
    assert Render(order, c) == Token("Uup", 3) + Render(order[1..], c);
    assert "Uup3" + "Uus4Uuo5" == "Uup3Uus4Uuo5";
  }

  lemma SuperheavyTail()
    ensures Render(["Uus", "Uuo"], map["Uut" := 2, "Uup" := 3, "Uus" := 4, "Uuo" := 5]) == "Uus4Uuo5"
  {
    var c := map["Uut" := 2, "Uup" := 3, "Uus" := 4, "Uuo" := 5];
    assert Render(["Uuo"], c) == "Uuo5" by {
      assert Decimal(5) == "5";
      assert Render(["Uuo"][1..], c) == "";
    }
    assert Render(["Uus", "Uuo"], c) == "Uus4Uuo5" by {
      assert Decimal(4) == "4";
      assert ["Uus", "Uuo"][1..] == ["Uuo"];
    }
  }

}

=== FILE: formula.dfy ===
/**
  Chemical formulas as text: the hand-written scanner `formula_parser`, the
  serialiser `sorted_formula` with its alphabetical and simplified Hill
  orders, and the token expander `formula_to_list`.
 */
module Formula {
  import opened Wrappers
  import opened Symbols
  import opened Compositions

  // ---------------------------------------------------------------------
  // Decimal numbers

  function DigitValue(ch: char): nat
    requires IsDigit(ch)
  {
    (ch - '0') as nat
  }

  function DigitChar(d: nat): (ch: char)
    requires d < 10
    ensures IsDigit(ch) && DigitValue(ch) == d
  {
    ('0' as int + d) as char
  }

  predicate AllDigits(ds: string) {
    forall i | 0 <= i < |ds| :: IsDigit(ds[i])
  }

  /** `int(number)` for a run of decimal digits; leading zeros add nothing. */
  function DecimalValue(ds: string): nat
    requires AllDigits(ds)
  {
    if |ds| == 0 then 0 else DecimalValue(ds[..|ds| - 1]) * 10 + DigitValue(ds[|ds| - 1])
  }

  /** `"%d" % n`: the decimal numeral of `n`, without leading zeros. */
  function Decimal(n: nat): (ds: string)
    ensures |ds| > 0 && AllDigits(ds)
    ensures DecimalValue(ds) == n
    ensures |ds| > 1 ==> ds[0] != '0'
  {
    if n < 10 then [DigitChar(n)]
    else
      var front := Decimal(n / 10);
      var ds := front + [DigitChar(n % 10)];
      assert ds[..|ds| - 1] == front;
      ds
  }

  // ---------------------------------------------------------------------
  // formula_parser

  /** How many characters the species starting at `s[0]` takes: the
      uppercase letter plus up to two following lowercase letters. */
  function SymbolLength(s: string): (n: nat)
    requires |s| > 0
    ensures 1 <= n <= 3 && n <= |s|
  {
    if 1 < |s| && IsLower(s[1]) then
      if 2 < |s| && IsLower(s[2]) then 3 else 2
    else 1
  }

  /** The count a digit run stands for: its value, or 1 when it is empty. */
  function CountOf(number: string): nat
    requires AllDigits(number)
  {
    if |number| == 0 then 1 else DecimalValue(number)
  }

  /** The longest prefix of decimal digits. */
  function DigitPrefix(s: string): (ds: string)
    ensures AllDigits(ds) && ds <= s
  {
    s[..Run(s, IsDigit)]
  }

  /** The scanning loop of `formula_parser`, on the unread suffix `s` with the
      dictionary `acc` built so far. An uppercase letter starts a species and
      the digit run after it is its count (1 when there is none); a species
      seen again has its count overwritten; other characters are skipped. */
  function Scan(s: string, acc: Composition): (r: Composition)
    ensures acc.Keys <= r.Keys
    ensures forall k | k in r && k !in acc :: WellFormedSymbol(k)
    decreases |s|
  {
    if |s| == 0 then acc
    else if IsUpper(s[0]) then
      var len := SymbolLength(s);
      var number := DigitPrefix(s[len..]);
      Scan(s[len..], acc[s[..len] := CountOf(number)])
    else Scan(s[1..], acc)
  }

  /** `formula_parser`: every species it reports is an uppercase letter
      followed by at most two lowercase letters. */
  function FormulaParser(s: string): (r: Composition)
    ensures forall k | k in r :: WellFormedSymbol(k)
  {
    Scan(s, map[])
  }

  /** `Composition(formula)`: parse, then check the species. */
  function FromFormula(s: string, table: PeriodicTable): (r: Result<Composition, Error>)
    ensures r.Success? <==> FormulaParser(s).Keys <= table.Keys
    ensures r.Success? ==> r.value == FormulaParser(s)
  {
    SetComposition(FormulaParser(s), table)
  }

  // ---------------------------------------------------------------------
  // sorted_formula

  /** One species as `sorted_formula` writes it: the symbol, then its count
      only when the count exceeds 1. */
  function Token(sym: string, n: nat): (t: string)
    ensures |t| >= |sym| && t[..|sym|] == sym
    ensures AllDigits(t[|sym|..])
    ensures n >= 1 ==> CountOf(t[|sym|..]) == n
    ensures |t| == |sym| <==> n <= 1
    ensures |t| > |sym| + 1 ==> t[|sym|] != '0'
  {
    var t := sym + CountText(n);
    assert t[..|sym|] == sym && t[|sym|..] == CountText(n);
    t
  }

  /** The species of `order` written one after another. */
  function Render(order: seq<string>, c: Composition): (r: string)
    requires forall i | 0 <= i < |order| :: order[i] in c
    ensures |order| > 0 ==> |r| >= |order[0]| && r[..|order[0]|] == order[0]
    ensures (forall i | 0 <= i < |order| :: WellFormedSymbol(order[i])) ==> StartsSpecies(r)
  {
    if |order| == 0 then "" else Token(order[0], c[order[0]]) + Render(order[1..], c)
  }

  datatype SortBy = Alpha | Hill

  /** The `sortby` argument: "hill" selects the Hill order, "electroneg"
      (not modelled) gives `None`, and every other string falls through to
      the alphabetical order. */
  function SortByName(name: string): (r: Option<SortBy>)
    ensures r == Some(Hill) <==> name == "hill"
    ensures r.None? <==> name == "electroneg"
    ensures r == Some(Alpha) <==> name != "hill" && name != "electroneg"
  {
    if name == "electroneg" then None
    else if name == "hill" then Some(Hill)
    else Some(Alpha)
  }

  /** `xs` with every occurrence of `x` removed (`list.pop(list.index(x))`
      on a list holding `x` at most once). */
  function Without(xs: seq<string>, x: string): (r: seq<string>)
    ensures forall y :: y in r <==> y in xs && y != x
    ensures StrictlySorted(xs) ==> StrictlySorted(r)
    ensures Distinct(xs) ==> |r| == if x in xs then |xs| - 1 else |xs|
  {
    if |xs| == 0 then []
    else
      var rest := Without(xs[1..], x);
      assert forall y | y in xs[1..] :: y in xs;
      assert Distinct(xs) ==> Distinct(xs[1..]) && xs[0] !in xs[1..];
      if xs[0] == x then rest
      else
        assert StrictlySorted(xs) ==> forall j | 0 <= j < |rest| :: rest[j] in xs[1..];
        [xs[0]] + rest
  }

  /** Carbon and hydrogen, which the simplified Hill order puts first. */
  predicate Leading(s: string) {
    s == "C" || s == "H"
  }

  /** The simplified Hill order of the source: C when present, then H when
      present (whether or not C is), then the other species alphabetically. */
  function HillOrder(keys: set<string>): (r: seq<string>)
    ensures Distinct(r) && |r| == |keys|
    ensures forall x :: x in r <==> x in keys
    ensures "C" in keys ==> r[0] == "C"
    ensures "H" in keys ==> r[if "C" in keys then 1 else 0] == "H"
    ensures forall i, j | 0 <= i < j < |r| && !Leading(r[i]) :: !Leading(r[j]) && Below(r[i], r[j])
  {
    HillFacts(keys);
    HillLead(keys) + HillRest(keys)
  }

  /** The species the Hill order moves to the front, in order. */
  function HillLead(keys: set<string>): seq<string> {
    (if "C" in keys then ["C"] else []) + (if "H" in keys then ["H"] else [])
  }

  /** The remaining species, from the alphabetically sorted list with C and H popped. */
  function HillRest(keys: set<string>): seq<string> {
    Without(Without(SortedSymbols(keys), "C"), "H")
  }

  lemma HillFacts(keys: set<string>)
    ensures var r := HillLead(keys) + HillRest(keys);
      && Distinct(r) && |r| == |keys|
      && (forall x :: x in r <==> x in keys)
      && ("C" in keys ==> r[0] == "C")
      && ("H" in keys ==> r[if "C" in keys then 1 else 0] == "H")
      && (forall i, j | 0 <= i < j < |r| && !Leading(r[i]) :: !Leading(r[j]) && Below(r[i], r[j]))
  {
    HillRestSize(keys);
    HillShape(keys, HillLead(keys), HillRest(keys));
  }

  /** The simplified Hill order is C and H, when present, followed by the
      alphabetical order of the other species. */
  lemma HillOrderSplit(keys: set<string>)
    ensures HillOrder(keys) == HillLead(keys) + SortedSymbols(keys - {"C", "H"})
  {
    var rest := HillRest(keys);
    var others := SortedSymbols(keys - {"C", "H"});
    assert forall y :: y in rest <==> y in others;
    StrictlySortedUnique(rest, others);
  }

  /** Carbon, hydrogen and one other species: C, H, then the other. */
  lemma HillOrderOfThree(x: string)
    requires !Leading(x)
    ensures HillOrder({"C", "H", x}) == ["C", "H", x]
  {
    var keys := {"C", "H", x};
    HillOrderSplit(keys);
    assert keys - {"C", "H"} == {x};
    SortedSingleton(x);
  }

  /** Hydrogen and one other species, no carbon: H, then the other. */
  lemma HillOrderOfHydrogenAnd(x: string)
    requires !Leading(x)
    ensures HillOrder({"H", x}) == ["H", x]
  {
    var keys := {"H", x};
    HillOrderSplit(keys);
    assert keys - {"C", "H"} == {x};
    SortedSingleton(x);
  }

  lemma HillRestSize(keys: set<string>)
    ensures |HillRest(keys)| + (if "C" in keys then 1 else 0) + (if "H" in keys then 1 else 0) == |keys|
  {
    var withoutC := Without(SortedSymbols(keys), "C");
    assert StrictlySorted(withoutC);
    assert "H" in withoutC <==> "H" in keys;
  }

  lemma HillShape(keys: set<string>, lead: seq<string>, rest: seq<string>)
    requires lead == (if "C" in keys then ["C"] else []) + (if "H" in keys then ["H"] else [])
    requires forall y :: y in rest <==> y in keys && !Leading(y)
    requires StrictlySorted(rest)
    ensures Distinct(lead + rest)
    ensures forall x :: x in lead + rest <==> x in keys
    ensures forall i, j | 0 <= i < j < |lead + rest| && !Leading((lead + rest)[i]) ::
      !Leading((lead + rest)[j]) && Below((lead + rest)[i], (lead + rest)[j])
  {
    var r := lead + rest;
    assert forall i | 0 <= i < |lead| :: Leading(lead[i]) && r[i] == lead[i];
    assert forall i | |lead| <= i < |r| :: r[i] == rest[i - |lead|] && !Leading(r[i]);
    assert Distinct(lead);
  }

  /** The order `sorted_formula` lists the species of `keys` in. */
  function Order(keys: set<string>, sortBy: SortBy): (r: seq<string>)
    ensures Distinct(r) && |r| == |keys|
    ensures forall x :: x in r <==> x in keys
  {
    match sortBy
    case Alpha => SortedSymbols(keys)
    case Hill => HillOrder(keys)
  }

  /** `sorted_formula(sortby, reduced)`. With `reduced`, a composition
      without atoms fails (its gcd is `None`), and otherwise the counts are
      divided by the gcd before writing. */
  function SortedFormula(c: Composition, sortBy: SortBy, reduced: bool): (r: Result<string, Error>)
    ensures r.Failure? <==> reduced && Natom(c) == 0
    ensures r.Failure? ==> r.error == NoAtoms
  {
    if reduced && Gcd(c).None? then Failure(NoAtoms)
    else
      var g := if reduced then Gcd(c).value else 1;
      Success(Written(if g > 1 then Divided(c, g) else c, sortBy))
  }

  /** The species of `c` in the order `sortBy`, each followed by its count. */
  function Written(c: Composition, sortBy: SortBy): string {
    Render(Order(c.Keys, sortBy), c)
  }

  /** The `formula` property: the reduced, alphabetical formula. */
  function FormulaText(c: Composition): (r: Result<string, Error>)
    ensures r.Success? <==> Natom(c) > 0
  {
    SortedFormula(c, Alpha, true)
  }

  // ---------------------------------------------------------------------
  // Round trip: formula_parser(sorted_formula(...))

  /** Every species is a well-formed symbol present with at least one atom:
      the compositions the formula text describes faithfully. */
  ghost predicate Writable(c: Composition) {
    forall s | s in c :: WellFormedSymbol(s) && c[s] >= 1
  }

  /** Text that cannot continue a species or a count: empty, or starting a new species. */
  predicate StartsSpecies(s: string) {
    |s| == 0 || IsUpper(s[0])
  }

  /** Reading past a run of digits changes nothing. */
  lemma {:induction false} ScanSkipsDigits(ds: string, rest: string, acc: Composition)
    requires AllDigits(ds)
    ensures Scan(ds + rest, acc) == Scan(rest, acc)
  {
    if |ds| > 0 {
      var s := ds + rest;
      assert s[0] == ds[0] && !IsUpper(s[0]);
      assert s[1..] == ds[1..] + rest;
      ScanSkipsDigits(ds[1..], rest, acc);
    } else {
      assert ds + rest == rest;
    }
  }

  /** The digits written for a count, followed by a new species or the end. */
  function CountText(n: nat): string {
    if n > 1 then Decimal(n) else ""
  }

  lemma CountTextRead(n: nat)
    requires n >= 1
    ensures AllDigits(CountText(n)) && CountOf(CountText(n)) == n
  {
  }

  /** Tokenisation: at a well-formed symbol followed by a digit run and then
      by a new species or the end, the scanner records the symbol with the
      run's value (1 for an empty run, leading zeros ignored), overwriting
      any earlier count of that symbol, and goes on after the run. */
  lemma ScanSpecies(sym: string, ds: string, rest: string, acc: Composition)
    requires WellFormedSymbol(sym) && AllDigits(ds)
    requires |rest| == 0 || !IsDigit(rest[0])
    requires |ds| > 0 || |sym| == 3 || |rest| == 0 || !IsLower(rest[0])
    ensures Scan(sym + ds + rest, acc) == Scan(rest, acc[sym := CountOf(ds)])
  {
    var s := sym + ds + rest;
    assert s == sym + (ds + rest);
    assert SymbolLength(s) == |sym| by {
      if |sym| < 3 && |sym| < |s| {
        assert s[|sym|] == (ds + rest)[0];
      }
    }
    assert s[..|sym|] == sym;
    assert s[|sym|..] == ds + rest;
    RunOfConcat(ds, rest, IsDigit);
    assert (ds + rest)[..|ds|] == ds;
    ScanSkipsDigits(ds, rest, acc[sym := CountOf(ds)]);
  }

  /** The scanner reads one written species back: its symbol, then its count. */
  lemma ScanToken(sym: string, n: nat, rest: string, acc: Composition)
    requires WellFormedSymbol(sym) && n >= 1 && StartsSpecies(rest)
    ensures Scan(Token(sym, n) + rest, acc) == Scan(rest, acc[sym := n])
  {
    CountTextRead(n);
    ScanSpecies(sym, CountText(n), rest, acc);
  }

  /** The counts of `c` restricted to the species listed in `order`. */
  function Along(order: seq<string>, c: Composition): (m: Composition)
    requires forall i | 0 <= i < |order| :: order[i] in c
    ensures forall k :: k in m <==> k in order
  {
    map k | k in order :: c[k]
  }

  lemma AlongCons(order: seq<string>, c: Composition, acc: Composition)
    requires |order| > 0 && forall i | 0 <= i < |order| :: order[i] in c
    ensures acc[order[0] := c[order[0]]] + Along(order[1..], c) == acc + Along(order, c)
  {
    var lhs := acc[order[0] := c[order[0]]] + Along(order[1..], c);
    var rhs := acc + Along(order, c);
    assert forall k :: k in order <==> k == order[0] || k in order[1..];
    assert lhs.Keys == rhs.Keys;
    forall k | k in lhs
      ensures lhs[k] == rhs[k]
    {
    }
  }

  /** Scanning the written species of `order` records each with its count. */
  lemma {:induction false} ScanRender(order: seq<string>, c: Composition, acc: Composition)
    requires forall i | 0 <= i < |order| :: order[i] in c
    requires Writable(c)
    ensures Scan(Render(order, c), acc) == acc + Along(order, c)
  {
    if |order| == 0 {
      assert Along(order, c) == map[];
    } else {
      var k0 := order[0];
      var tail := order[1..];
      ScanToken(k0, c[k0], Render(tail, c), acc);
      ScanRender(tail, c, acc[k0 := c[k0]]);
      AlongCons(order, c, acc);
    }
  }

  /** Parsing the written species of any order that lists each species of
      `c` recovers `c`. */
  lemma ParseRender(order: seq<string>, c: Composition)
    requires forall x :: x in order <==> x in c
    requires Writable(c)
    ensures FormulaParser(Render(order, c)) == c
  {
    ScanRender(order, c, map[]);
    AlongComplete(order, c);
  }

  /** The counts along an order that lists every species are the whole composition. */
  lemma AlongComplete(order: seq<string>, c: Composition)
    requires forall x :: x in order <==> x in c
    ensures map[] + Along(order, c) == c
  {
  }

  /** Unfolds `sorted_formula(reduced=False)` to the writing loop over the chosen order. */
  lemma UnreducedFormulaText(c: Composition, sortBy: SortBy)
    ensures SortedFormula(c, sortBy, false) == Success(Render(Order(c.Keys, sortBy), c))
  {
  }

  /** The round trip: parsing the unreduced formula, in either order, gives
      back the composition. */
  lemma ParseSortedFormula(c: Composition, sortBy: SortBy)
    requires Writable(c)
    ensures SortedFormula(c, sortBy, false) == Success(Render(Order(c.Keys, sortBy), c))
    ensures FormulaParser(SortedFormula(c, sortBy, false).value) == c
  {
    ParseRender(Order(c.Keys, sortBy), c);
  }

  /** The reduced formula writes the composition divided by its gcd. */
  lemma ReducedFormulaText(c: Composition, sortBy: SortBy)
    requires Natom(c) > 0
    ensures Gcd(c).Some? && Gcd(c).value > 0
    ensures var d := Divided(c, Gcd(c).value);
      SortedFormula(c, sortBy, true) == Success(Render(Order(d.Keys, sortBy), d))
  {
    if Gcd(c).value > 1 {
      ReducedFormulaTextDivided(c, sortBy);
    } else {
      ReducedFormulaTextUnit(c, sortBy);
    }
  }

  /** The reduced formula, once the gcd `g > 1` and the divided composition `d` are known. */
  lemma ReducedFormulaOf(c: Composition, g: nat, d: Composition, sortBy: SortBy)
    requires Gcd(c) == Some(g) && g > 1 && Divided(c, g) == d
    ensures SortedFormula(c, sortBy, true) == Success(Render(Order(d.Keys, sortBy), d))
  {
    ReducedFormulaTextDivided(c, sortBy);
  }

  lemma ReducedFormulaTextDivided(c: Composition, sortBy: SortBy)
    requires Gcd(c).Some? && Gcd(c).value > 1
    ensures var d := Divided(c, Gcd(c).value);
      SortedFormula(c, sortBy, true) == Success(Render(Order(d.Keys, sortBy), d))
  {
  }

  /** With gcd 1, reducing leaves the formula as it is. */
  lemma ReducedUnitFormula(c: Composition, sortBy: SortBy)
    requires Gcd(c) == Some(1)
    ensures SortedFormula(c, sortBy, true) == SortedFormula(c, sortBy, false)
  {
  }

  lemma ReducedFormulaTextUnit(c: Composition, sortBy: SortBy)
    requires Gcd(c).Some? && Gcd(c).value <= 1
    ensures var d := Divided(c, Gcd(c).value);
      SortedFormula(c, sortBy, true) == Success(Render(Order(d.Keys, sortBy), d))
  {
    GcdIsUnit(c);
    ReducedUnitFormula(c, sortBy);
    UnreducedFormulaText(c, sortBy);
    DividedByOne(c, 1);
  }

  /** A gcd that is present and at most 1 is 1. */
  lemma GcdIsUnit(c: Composition)
    requires Gcd(c).Some? && Gcd(c).value <= 1
    ensures Gcd(c) == Some(1)
  {
    GcdPositive(c);
  }

  /** Parsing the reduced formula gives the composition divided by its gcd. */
  lemma ParseReducedFormula(c: Composition, sortBy: SortBy)
    requires Writable(c) && Natom(c) > 0
    ensures SortedFormula(c, sortBy, true).Success?
    ensures FormulaParser(SortedFormula(c, sortBy, true).value) == Divided(c, Gcd(c).value)
  {
    var d := Divided(c, Gcd(c).value);
    ReducedFormulaText(c, sortBy);
    DividedWritable(c, Gcd(c).value);
    ParseRender(Order(d.Keys, sortBy), d);
  }

  lemma DividedWritable(c: Composition, g: nat)
    requires Writable(c) && g > 0 && CommonDivisor(g, c)
    ensures Writable(Divided(c, g))
  {
    var d := Divided(c, g);
    DividedRestores(c, g);
    forall s | s in d
      ensures d[s] >= 1
    {
      assert d[s] * g == c[s];
    }
  }

  lemma DividedByOne(c: Composition, g: nat)
    requires g == 1
    ensures Divided(c, g) == c
  {
  }

  // ---------------------------------------------------------------------
  // formula_to_list

  predicate IsLetter(ch: char) {
    IsUpper(ch) || IsLower(ch)
  }

  predicate IsLowerOrDigit(ch: char) {
    IsLower(ch) || IsDigit(ch)
  }

  /** One `(symbol, count)` pair of `formula_to_list`. */
  datatype Entry = Entry(name: string, count: nat)

  /** The pairs `formula_to_list` reads: each match of `[A-Z][a-z0-9]*`, split
      into its leading letters and the digits right after them (count 1
      when there are none); characters outside a match are skipped. */
  function Entries(f: string): (es: seq<Entry>)
    ensures |es| <= |f|
    ensures forall i | 0 <= i < |es| :: |es[i].name| > 0 && IsUpper(es[i].name[0])
    ensures forall i, j | 0 <= i < |es| && 0 <= j < |es[i].name| :: IsLetter(es[i].name[j])
    decreases |f|
  {
    if |f| == 0 then []
    else if IsUpper(f[0]) then
      var len := 1 + Run(f[1..], IsLowerOrDigit);
      var tok := f[..len];
      var nameLen := Run(tok, IsLetter);
      var number := DigitPrefix(tok[nameLen..]);
      [Entry(tok[..nameLen], CountOf(number))] + Entries(f[len..])
    else Entries(f[1..])
  }

  /** `range(n * nunits)`: how many copies one entry contributes. */
  function Copies(n: nat, nunits: int): nat {
    if n * nunits > 0 then n * nunits else 0
  }

  function ExpandEntries(es: seq<Entry>, nunits: int): seq<string> {
    if |es| == 0 then []
    else Repeat(es[0].name, Copies(es[0].count, nunits)) + ExpandEntries(es[1..], nunits)
  }

  /** `formula_to_list(formula, nunits)`. */
  function FormulaToList(f: string, nunits: int): (r: seq<string>)
    ensures forall x | x in r :: Named(Entries(f), x)
    ensures forall x | x in r :: |x| > 0 && IsUpper(x[0])
    ensures nunits <= 0 ==> r == []
  {
    var es := Entries(f);
    var r := ExpandEntries(es, nunits);
    ExpandedLength(es, nunits);
    ExpandEntriesNames(es, nunits);
    assert forall x | x in r :: |x| > 0 && IsUpper(x[0]) by {
      forall x | x in r
        ensures |x| > 0 && IsUpper(x[0])
      {
        assert Named(es, x);
        var i :| 0 <= i < |es| && es[i].name == x;
      }
    }
    r
  }

  /** `x` is the name of one of the entries. */
  predicate Named(es: seq<Entry>, x: string) {
    exists i | 0 <= i < |es| :: es[i].name == x
  }

  /** Every symbol of the expanded list is the name of one of the entries. */
  lemma {:induction false} ExpandEntriesNames(es: seq<Entry>, nunits: int)
    ensures forall x | x in ExpandEntries(es, nunits) :: Named(es, x)
  {
    if |es| > 0 {
      ExpandEntriesNames(es[1..], nunits);
      var head := Repeat(es[0].name, Copies(es[0].count, nunits));
      forall x | x in ExpandEntries(es, nunits)
        ensures Named(es, x)
      {
        if x in head {
          assert es[0].name == x;
        } else {
          assert x in ExpandEntries(es[1..], nunits);
          assert Named(es[1..], x);
          var k :| 0 <= k < |es[1..]| && es[1..][k].name == x;
          assert es[k + 1].name == x;
        }
      }
    }
  }

  function CountSum(es: seq<Entry>): nat {
    if |es| == 0 then 0 else es[0].count + CountSum(es[1..])
  }

  /** The list holds `nunits` times as many symbols as the formula's counts
      add up to, and nothing for a non-positive `nunits`. */
  lemma {:induction false} ExpandedLength(es: seq<Entry>, nunits: int)
    ensures nunits >= 0 ==> |ExpandEntries(es, nunits)| == nunits * CountSum(es)
    ensures nunits <= 0 ==> ExpandEntries(es, nunits) == []
  {
    if |es| > 0 {
      ExpandedLength(es[1..], nunits);
      var n := es[0].count;
      if nunits >= 0 {
        ScaledSum(nunits, n, CountSum(es[1..]));
      } else {
        NonPositiveCopies(n, nunits);
      }
    }
  }

  lemma ScaledSum(k: int, n: nat, m: nat)
    requires k >= 0
    ensures Copies(n, k) == k * n
    ensures k * (n + m) == k * n + k * m
  {
    assert n * k == k * n;
  }

  lemma NonPositiveCopies(n: nat, k: int)
    requires k <= 0
    ensures Copies(n, k) == 0
  {
    assert n * k <= 0;
  }

  lemma FormulaToListLength(f: string, nunits: int)
    ensures nunits >= 0 ==> |FormulaToList(f, nunits)| == nunits * CountSum(Entries(f))
    ensures nunits <= 0 ==> FormulaToList(f, nunits) == []
  {
    ExpandedLength(Entries(f), nunits);
  }

  /** The match of `[A-Z][a-z0-9]*` at a written species is its symbol and count text. */
  lemma MatchOfToken(sym: string, ds: string, rest: string)
    requires WellFormedSymbol(sym) && AllDigits(ds) && StartsSpecies(rest)
    ensures var f := sym + ds + rest;
      && 1 + Run(f[1..], IsLowerOrDigit) == |sym| + |ds|
      && f[..|sym| + |ds|] == sym + ds
      && f[|sym| + |ds|..] == rest
  {
    var f := sym + ds + rest;
    var body := sym[1..] + ds;
    assert forall i | 0 <= i < |body| :: IsLowerOrDigit(body[i]);
    assert f[1..] == body + rest;
    RunOfConcat(body, rest, IsLowerOrDigit);
  }

  /** Within that match, the letters are the symbol and the digits the count. */
  lemma SplitOfMatch(sym: string, ds: string)
    requires WellFormedSymbol(sym) && AllDigits(ds)
    ensures Run(sym + ds, IsLetter) == |sym|
    ensures (sym + ds)[..|sym|] == sym
    ensures DigitPrefix((sym + ds)[|sym|..]) == ds
  {
    RunOfConcat(sym, ds, IsLetter);
    assert (sym + ds)[|sym|..] == ds + [];
    RunOfConcat(ds, [], IsDigit);
  }

  /** `formula_to_list` reads one written species as one entry. */
  lemma EntriesToken(sym: string, n: nat, rest: string)
    requires WellFormedSymbol(sym) && n >= 1 && StartsSpecies(rest)
    ensures Entries(Token(sym, n) + rest) == [Entry(sym, n)] + Entries(rest)
  {
    var ds := CountText(n);
    CountTextRead(n);
    assert Token(sym, n) + rest == sym + ds + rest;
    MatchOfToken(sym, ds, rest);
    SplitOfMatch(sym, ds);
  }

  /** The entries of a written formula: its species in the given order, each
      once, with its count. */
  lemma {:induction false} EntriesOfRender(order: seq<string>, c: Composition)
    requires forall i | 0 <= i < |order| :: order[i] in c
    requires Writable(c)
    ensures |Entries(Render(order, c))| == |order|
    ensures forall i | 0 <= i < |order| :: Entries(Render(order, c))[i] == Entry(order[i], c[order[i]])
  {
    if |order| > 0 {
      EntriesToken(order[0], c[order[0]], Render(order[1..], c));
      EntriesOfRender(order[1..], c);
    }
  }

  lemma {:induction false} ExpandRender(order: seq<string>, c: Composition)
    requires forall i | 0 <= i < |order| :: order[i] in c
    requires Writable(c)
    ensures FormulaToList(Render(order, c), 1) == Expand(order, c)
  {
    if |order| > 0 {
      EntriesToken(order[0], c[order[0]], Render(order[1..], c));
      ExpandRender(order[1..], c);
    }
  }

  /** Each species of `order` repeated `k` times its count, one group after another. */
  function Grouped(order: seq<string>, c: Composition, k: nat): seq<string>
    requires forall i | 0 <= i < |order| :: order[i] in c
  {
    if |order| == 0 then [] else Repeat(order[0], k * c[order[0]]) + Grouped(order[1..], c, k)
  }

  /** `formula_to_list(f, k)` of a written formula: group by group, each
      species `k` times its count, in the written order. */
  lemma {:induction false} FormulaToListOfRender(order: seq<string>, c: Composition, k: nat)
    requires forall i | 0 <= i < |order| :: order[i] in c
    requires Writable(c)
    ensures FormulaToList(Render(order, c), k) == Grouped(order, c, k)
  {
    if |order| > 0 {
      var rest := Render(order[1..], c);
      EntriesToken(order[0], c[order[0]], rest);
      FormulaToListOfRender(order[1..], c, k);
      ScaledSum(k, c[order[0]], 0);
      var es := Entries(rest);
      assert ([Entry(order[0], c[order[0]])] + es)[1..] == es;
    }
  }

  /** In the groups of a duplicate-free order, a species occurs `k` times its
      count, and any other string not at all. */
  lemma {:induction false} GroupedCount(order: seq<string>, c: Composition, k: nat, s: string)
    requires forall i | 0 <= i < |order| :: order[i] in c
    requires Distinct(order)
    ensures multiset(Grouped(order, c, k))[s] == if s in order then k * c[s] else 0
  {
    if |order| > 0 {
      GroupedCount(order[1..], c, k, s);
      RepeatCount(order[0], k * c[order[0]], s);
      if s == order[0] {
        assert s !in order[1..];
      } else {
        assert s in order <==> s in order[1..];
      }
    }
  }

  /** `formula_to_list(f, k)` of a formula written along a duplicate-free
      order lists the species group by group, in that order, each `k` times
      its count. */
  lemma FormulaToListOfWritten(order: seq<string>, c: Composition, k: nat)
    requires forall i | 0 <= i < |order| :: order[i] in c
    requires Writable(c) && Distinct(order)
    ensures FormulaToList(Render(order, c), k) == Grouped(order, c, k)
    ensures forall s :: multiset(FormulaToList(Render(order, c), k))[s] == if s in order then k * c[s] else 0
  {
    FormulaToListOfRender(order, c, k);
    forall s
      ensures multiset(Grouped(order, c, k))[s] == if s in order then k * c[s] else 0
    {
      GroupedCount(order, c, k, s);
    }
  }

  /** The counts of all matches named `s`. */
  function NameCount(es: seq<Entry>, s: string): nat {
    if |es| == 0 then 0 else (if es[0].name == s then es[0].count else 0) + NameCount(es[1..], s)
  }

  /** On any formula, a symbol occurs `k` times the counts of its matches
      added up: a species written twice contributes both counts. */
  lemma {:induction false} ExpandEntriesCount(es: seq<Entry>, k: nat, s: string)
    ensures multiset(ExpandEntries(es, k))[s] == k * NameCount(es, s)
  {
    if |es| > 0 {
      var head := if es[0].name == s then es[0].count else 0;
      var rest := NameCount(es[1..], s);
      ExpandEntriesCount(es[1..], k, s);
      EntryCopiesCount(es[0], k, s);
      ScaledSum(k, head, rest);
      assert NameCount(es, s) == head + rest;
      assert multiset(ExpandEntries(es, k))[s]
        == multiset(Repeat(es[0].name, Copies(es[0].count, k)))[s] + multiset(ExpandEntries(es[1..], k))[s];
    }
  }

  /** One match contributes `k` times its count to its own name and nothing to any other. */
  lemma EntryCopiesCount(e: Entry, k: nat, s: string)
    ensures multiset(Repeat(e.name, Copies(e.count, k)))[s] == k * (if e.name == s then e.count else 0)
  {
    ScaledSum(k, e.count, 0);
    RepeatCount(e.name, Copies(e.count, k), s);
  }

  lemma FormulaToListCounts(f: string, k: nat, s: string)
    ensures multiset(FormulaToList(f, k))[s] == k * NameCount(Entries(f), s)
  {
    ExpandEntriesCount(Entries(f), k, s);
  }

  /** The unreduced formula, read back with the patterns of `formula_to_list`,
      holds every species exactly once, in the chosen order, with its own count. */
  lemma UnreducedFormulaEntries(c: Composition, sortBy: SortBy)
    requires Writable(c)
    ensures SortedFormula(c, sortBy, false).Success?
    ensures var es := Entries(SortedFormula(c, sortBy, false).value);
      |es| == |c| &&
      (forall i | 0 <= i < |es| :: es[i].name == Order(c.Keys, sortBy)[i]) &&
      (forall i | 0 <= i < |es| :: es[i].name in c && es[i].count == c[es[i].name]) &&
      (forall i, j | 0 <= i < j < |es| :: es[i].name != es[j].name) &&
      (forall s | s in c :: exists i | 0 <= i < |es| :: es[i].name == s)
  {
    var order := Order(c.Keys, sortBy);
    UnreducedFormulaText(c, sortBy);
    EntriesOfOrder(order, c);
  }

  /** The entries of a formula written along a duplicate-free list of all the species. */
  lemma EntriesOfOrder(order: seq<string>, c: Composition)
    requires Distinct(order) && |order| == |c|
    requires forall x :: x in order <==> x in c
    requires Writable(c)
    ensures var es := Entries(Render(order, c));
      |es| == |c| &&
      (forall i | 0 <= i < |es| :: es[i].name == order[i]) &&
      (forall i | 0 <= i < |es| :: es[i].name in c && es[i].count == c[es[i].name]) &&
      (forall i, j | 0 <= i < j < |es| :: es[i].name != es[j].name) &&
      (forall s | s in c :: exists i | 0 <= i < |es| :: es[i].name == s)
  {
    EntriesOfRender(order, c);
    EntriesAlong(Entries(Render(order, c)), order, c);
  }

  /** Entries that pair each species of a duplicate-free complete order with
      its count name every species once, in that order. */
  lemma EntriesAlong(es: seq<Entry>, order: seq<string>, c: Composition)
    requires Distinct(order) && |order| == |c|
    requires forall x :: x in order <==> x in c
    requires |es| == |order|
    requires forall i | 0 <= i < |order| :: order[i] in c && es[i] == Entry(order[i], c[order[i]])
    ensures |es| == |c|
    ensures forall i | 0 <= i < |es| :: es[i].name == order[i]
    ensures forall i | 0 <= i < |es| :: es[i].name in c && es[i].count == c[es[i].name]
    ensures forall i, j | 0 <= i < j < |es| :: es[i].name != es[j].name
    ensures forall s | s in c :: exists i | 0 <= i < |es| :: es[i].name == s
  {
    EntryNamesDistinct(es, order);
    EntryNamesCover(es, order, c);
  }

  /** Entries named along a duplicate-free order have pairwise distinct names. */
  lemma EntryNamesDistinct(es: seq<Entry>, order: seq<string>)
    requires |es| == |order| && Distinct(order)
    requires forall i | 0 <= i < |es| :: es[i].name == order[i]
    ensures forall i, j | 0 <= i < j < |es| :: es[i].name != es[j].name
  {
  }

  /** Entries named along an order that lists every species name every species. */
  lemma EntryNamesCover(es: seq<Entry>, order: seq<string>, c: Composition)
    requires |es| == |order|
    requires forall i | 0 <= i < |es| :: es[i].name == order[i]
    requires forall x :: x in order <==> x in c
    ensures forall s | s in c :: exists i | 0 <= i < |es| :: es[i].name == s
  {
    forall s | s in c
      ensures exists i | 0 <= i < |es| :: es[i].name == s
    {
      var i :| 0 <= i < |order| && order[i] == s;
      assert es[i].name == s;
    }
  }

  /** `formula_to_list` of the unreduced alphabetical formula is the
      `symbols` list. */
  lemma FormulaToListIsSymbolList(c: Composition)
    requires Writable(c)
    ensures FormulaToList(SortedFormula(c, Alpha, false).value, 1) == SymbolList(c)
  {
    ExpandRender(SortedSymbols(c.Keys), c);
  }
}

=== FILE: species_code.dfy ===
/**
  The species of a composition packed into one integer: the ascending
  atomic numbers as the digits of a base-`base` number, least significant
  first (`species_encoded`, `species_hex`), and the digit extraction that
  reads them back (`get_species_from_hex`).
 */
module SpeciesCode {
  import opened Compositions

  /** Strictly increasing. */
  predicate Increasing(zs: seq<nat>) {
    forall i, j | 0 <= i < j < |zs| :: zs[i] < zs[j]
  }

  /** `m` belongs to `s` and no element of `s` is smaller. */
  predicate IsLeastNumber(m: nat, s: set<nat>) {
    m in s && forall x | x in s :: m <= x
  }

  lemma {:induction false} LeastNumberExists(s: set<nat>)
    requires s != {}
    ensures exists m :: IsLeastNumber(m, s)
    decreases |s|
  {
    var y :| y in s;
    var rest := s - {y};
    if rest == {} {
      assert s == {y};
      assert IsLeastNumber(y, s);
    } else {
      LeastNumberExists(rest);
      var m :| IsLeastNumber(m, rest);
      var least := if y < m then y else m;
      forall x | x in s
        ensures least <= x
      {
        if x != y {
          assert x in rest;
        }
      }
      assert IsLeastNumber(least, s);
    }
  }

  /** `sorted` of a set of naturals. */
  function SortedNumbers(s: set<nat>): (zs: seq<nat>)
    ensures Increasing(zs)
    ensures forall z :: z in zs <==> z in s
    ensures |zs| == |s|
    decreases |s|
  {
    if s == {} then []
    else
      LeastNumberExists(s);
      var m :| IsLeastNumber(m, s);
      var rest := SortedNumbers(s - {m});
      assert forall j | 0 <= j < |rest| :: m < rest[j] by {
        forall j | 0 <= j < |rest|
          ensures m < rest[j]
        {
          assert rest[j] in s - {m};
        }
      }
      [m] + rest
  }

  /** The atomic numbers of the species of `c`. */
  function NumberSet(c: Composition, table: PeriodicTable): set<nat>
    requires c.Keys <= table.Keys
  {
    set s | s in c :: table[s]
  }

  /** No two species of `keys` share an atomic number: one number per species. */
  lemma {:induction false} NumberSetSize(keys: set<string>, table: PeriodicTable)
    requires keys <= table.Keys
    requires forall a, b | a in keys && b in keys && a != b :: table[a] != table[b]
    ensures |set s | s in keys :: table[s]| == |keys|
    decreases |keys|
  {
    if keys != {} {
      var k :| k in keys;
      var rest := keys - {k};
      NumberSetSize(rest, table);
      var image := set s | s in keys :: table[s];
      var restImage := set s | s in rest :: table[s];
      assert image == restImage + {table[k]};
      assert table[k] !in restImage;
    }
  }

  lemma ValidTableSize(c: Composition, table: PeriodicTable)
    requires c.Keys <= table.Keys
    ensures ValidTable(table) ==> |NumberSet(c, table)| == |c|
  {
    if ValidTable(table) {
      NumberSetSize(c.Keys, table);
    }
  }

  /** `sorted(atomic_number(self.species))`: one atomic number per species,
      in ascending order. */
  function AtomicNumbers(c: Composition, table: PeriodicTable): (zs: seq<nat>)
    requires c.Keys <= table.Keys
    ensures Increasing(zs)
    ensures forall s | s in c :: table[s] in zs
    ensures forall z :: z in zs <==> z in NumberSet(c, table)
    ensures ValidTable(table) ==> |zs| == |c|
  {
    ValidTableSize(c, table);
    SortedNumbers(NumberSet(c, table))
  }

  /** `base ** i`. */
  function Pow(base: int, i: nat): int {
    if i == 0 then 1 else base * Pow(base, i - 1)
  }

  /** The number whose base-`base` digits, least significant first, are `zs`. */
  function Encode(zs: seq<nat>, base: int): int {
    if |zs| == 0 then 0 else zs[0] + base * Encode(zs[1..], base)
  }

  /** Appending a digit adds it at the next power of the base. */
  lemma {:induction false} EncodeSnoc(zs: seq<nat>, z: nat, base: int)
    ensures Encode(zs + [z], base) == Encode(zs, base) + z * Pow(base, |zs|)
  {
    if |zs| > 0 {
      assert (zs + [z])[1..] == zs[1..] + [z];
      EncodeSnoc(zs[1..], z, base);
      var e := Encode(zs[1..], base);
      var p := Pow(base, |zs| - 1);
      assert Encode(zs + [z], base) == zs[0] + base * (e + z * p);
      ShiftDigit(base, e, z, p);
    }
  }

  lemma ShiftDigit(base: int, e: int, z: int, p: int)
    ensures base * (e + z * p) == base * e + z * (base * p)
  {
    assert base * (e + z * p) == base * e + base * (z * p);
    assert base * (z * p) == z * (base * p);
  }

  /** `species_encoded(base)`: the sum of `z_i * base ** i` over the ascending
      atomic numbers `z_0 < z_1 < ...`. */
  method SpeciesEncoded(c: Composition, table: PeriodicTable, base: int) returns (ret: int)
    requires c.Keys <= table.Keys
    ensures ret == Encode(AtomicNumbers(c, table), base)
  {
    ret := EncodeDigits(AtomicNumbers(c, table), base);
  }

  /** The accumulation loop of `species_encoded`: digit `i` is added at `base ** i`. */
  method EncodeDigits(zs: seq<nat>, base: int) returns (ret: int)
    ensures ret == Encode(zs, base)
  {
    ret := 0;
    var i := 0;
    while i < |zs|
      invariant 0 <= i <= |zs|
      invariant ret == Encode(zs[..i], base)
    {
      EncodeSnoc(zs[..i], zs[i], base);
      assert zs[..i + 1] == zs[..i] + [zs[i]];
      ret := ret + zs[i] * Pow(base, i);
      i := i + 1;
    }
    assert zs[..i] == zs;
  }

  /** `species_hex`: the encoding in base 256 (its hexadecimal text is not modelled). */
  method SpeciesHex(c: Composition, table: PeriodicTable) returns (num: int)
    requires c.Keys <= table.Keys
    ensures num == Encode(AtomicNumbers(c, table), 256)
  {
    num := SpeciesEncoded(c, table, 256);
  }

  /** The base-256 digits of `num`, least significant first; none when `num <= 0`. */
  function Digits(num: int): (ds: seq<nat>)
    ensures |ds| == 0 <==> num <= 0
    ensures forall i | 0 <= i < |ds| :: ds[i] < 256
    decreases num
  {
    if num <= 0 then []
    else [num % 256] + Digits((num - num % 256) / 256)
  }

  /** Every digit is below 256 and the most significant one is not 0. */
  lemma {:induction false} DigitsAreBytes(num: int)
    ensures forall i | 0 <= i < |Digits(num)| :: Digits(num)[i] < 256
    ensures |Digits(num)| > 0 ==> Digits(num)[|Digits(num)| - 1] > 0
    decreases num
  {
    if num > 0 {
      var next := (num - num % 256) / 256;
      DigitsAreBytes(next);
      assert Digits(num) == [num % 256] + Digits(next);
    }
  }

  /** Encoding the digits of a non-negative number gives the number back. */
  lemma {:induction false} EncodeOfDigits(num: int)
    requires num >= 0
    ensures Encode(Digits(num), 256) == num
    decreases num
  {
    if num > 0 {
      var next := (num - num % 256) / 256;
      EncodeOfDigits(next);
      assert Digits(num)[1..] == Digits(next);
    }
  }

  /** `get_species_from_hex` on the number the hexadecimal text denotes: the
      loop peels off one base-256 digit per step, and stops because `num`
      strictly decreases. */
  method GetSpeciesFromHex(num0: int) returns (ret: seq<nat>)
    ensures ret == Digits(num0)
  {
    var num := num0;
    ret := [];
    while num > 0
      invariant ret + Digits(num) == Digits(num0)
      decreases num
    {
      var digit := num % 256;
      var next := (num - digit) / 256;
      assert Digits(num) == [digit] + Digits(next);
      assert ret + Digits(num) == (ret + [digit]) + Digits(next);
      ret := ret + [digit];
      num := next;
    }
  }

  /** Decoding inverts encoding for digits in 1..255. */
  lemma {:induction false} DigitsOfEncode(zs: seq<nat>)
    requires forall i | 0 <= i < |zs| :: 1 <= zs[i] <= 255
    ensures Digits(Encode(zs, 256)) == zs
  {
    if |zs| > 0 {
      var rest := Encode(zs[1..], 256);
      DigitsOfEncode(zs[1..]);
      var n := zs[0] + 256 * rest;
      assert rest >= 0;
      assert n % 256 == zs[0];
      assert (n - n % 256) / 256 == rest;
      assert zs == [zs[0]] + zs[1..];
    }
  }

  /** `get_species_from_hex(species_hex())` gives back the ascending atomic
      numbers, one per species. */
  lemma SpeciesHexRoundTrip(c: Composition, table: PeriodicTable)
    requires ValidTable(table) && c.Keys <= table.Keys
    ensures var zs := AtomicNumbers(c, table);
      Digits(Encode(zs, 256)) == zs && Increasing(zs) && |zs| == |c|
  {
    var zs := AtomicNumbers(c, table);
    forall i | 0 <= i < |zs|
      ensures 1 <= zs[i] <= 255
    {
      assert zs[i] in NumberSet(c, table);
    }
    DigitsOfEncode(zs);
  }
}

=== FILE: symbols.dfy ===
/**
  Atomic symbols as strings: the character classes the formula scanner tests,
  the lexicographic order Python's `sorted` uses on strings, and the sorted
  list of a set of symbols.
 */
module Symbols {

  /** `str.isupper` restricted to ASCII. */
  predicate IsUpper(ch: char) {
    'A' <= ch <= 'Z'
  }

  /** `str.islower` restricted to ASCII. */
  predicate IsLower(ch: char) {
    'a' <= ch <= 'z'
  }

  /** `str.isdigit` restricted to ASCII. */
  predicate IsDigit(ch: char) {
    '0' <= ch <= '9'
  }

  /** The shape the formula scanner recognises as one species: an uppercase
      letter followed by at most two lowercase letters. */
  predicate WellFormedSymbol(s: string) {
    1 <= |s| <= 3 && IsUpper(s[0]) && forall i | 1 <= i < |s| :: IsLower(s[i])
  }

  /** Python's `a <= b` on strings: code-point lexicographic order, a proper
      prefix coming first. */
  predicate Below(a: string, b: string) {
    |a| == 0 || (|b| > 0 && (a[0] < b[0] || (a[0] == b[0] && Below(a[1..], b[1..]))))
  }

  lemma BelowReflexive(a: string)
    ensures Below(a, a)
  {
  }

  lemma {:induction false} BelowAntisymmetric(a: string, b: string)
    requires Below(a, b) && Below(b, a)
    ensures a == b
  {
    if |a| > 0 {
      BelowAntisymmetric(a[1..], b[1..]);
      assert a == [a[0]] + a[1..];
      assert b == [b[0]] + b[1..];
    }
  }

  lemma {:induction false} BelowTransitive(a: string, b: string, c: string)
    requires Below(a, b) && Below(b, c)
    ensures Below(a, c)
  {
    if |a| > 0 && a[0] == b[0] && b[0] == c[0] {
      BelowTransitive(a[1..], b[1..], c[1..]);
    }
  }

  lemma {:induction false} BelowTotal(a: string, b: string)
    ensures Below(a, b) || Below(b, a)
  {
    if |a| > 0 && |b| > 0 && a[0] == b[0] {
      BelowTotal(a[1..], b[1..]);
    }
  }

  /** Strictly increasing under `Below`: sorted and free of duplicates. */
  predicate StrictlySorted(xs: seq<string>) {
    forall i, j | 0 <= i < j < |xs| :: Below(xs[i], xs[j]) && xs[i] != xs[j]
  }

  /** Non-decreasing under `Below`: what `sorted` returns. */
  predicate Sorted(xs: seq<string>) {
    forall i, j | 0 <= i < j < |xs| :: Below(xs[i], xs[j])
  }

  /** `m` belongs to `s` and is below every element of it. */
  predicate IsLeast(m: string, s: set<string>) {
    m in s && forall x | x in s :: Below(m, x)
  }

  /** Every non-empty finite set of strings has a least element. */
  lemma {:induction false} LeastExists(s: set<string>)
    requires s != {}
    ensures exists m :: IsLeast(m, s)
    decreases |s|
  {
    var y :| y in s;
    var rest := s - {y};
    if rest == {} {
      assert s == {y};
      BelowReflexive(y);
      assert IsLeast(y, s);
    } else {
      LeastExists(rest);
      var m :| IsLeast(m, rest);
      BelowTotal(m, y);
      if Below(m, y) {
        assert IsLeast(m, s);
      } else {
        forall x | x in s
          ensures Below(y, x)
        {
          if x == y {
            BelowReflexive(y);
          } else {
            assert x in rest;
            BelowTransitive(y, m, x);
          }
        }
        assert IsLeast(y, s);
      }
    }
  }

  /** The least element of a non-empty set of strings. */
  function Least(s: set<string>): (m: string)
    requires s != {}
    ensures m in s
    ensures forall x | x in s :: Below(m, x)
  {
    LeastExists(s);
    AntisymmetryOn(s);
    var m :| IsLeast(m, s);
    m
  }

  lemma AntisymmetryOn(s: set<string>)
    ensures forall a, b | a in s && b in s && Below(a, b) && Below(b, a) :: a == b
  {
    forall a, b | a in s && b in s && Below(a, b) && Below(b, a)
      ensures a == b
    {
      BelowAntisymmetric(a, b);
    }
  }

  /** `sorted(keys)`: the elements of a set of symbols in increasing order. */
  function SortedSymbols(s: set<string>): (r: seq<string>)
    ensures |r| == |s|
    ensures forall x :: x in r <==> x in s
    ensures StrictlySorted(r)
    decreases |s|
  {
    if s == {} then []
    else
      var m := Least(s);
      [m] + SortedSymbols(s - {m})
  }

  /** Sorting a single symbol. */
  lemma SortedSingleton(x: string)
    ensures SortedSymbols({x}) == [x]
  {
    var r := SortedSymbols({x});
    assert |r| == 1 && r[0] in {x};
  }

  /** No element occurs twice. */
  predicate Distinct(xs: seq<string>) {
    forall i, j | 0 <= i < j < |xs| :: xs[i] != xs[j]
  }

  /** Two strictly sorted lists with the same elements are the same list:
      `sorted` of a set of symbols does not depend on the order it is read in. */
  lemma {:induction false} StrictlySortedUnique(xs: seq<string>, ys: seq<string>)
    requires StrictlySorted(xs) && StrictlySorted(ys)
    requires forall x :: x in xs <==> x in ys
    ensures xs == ys
  {
    assert |xs| > 0 ==> xs[0] in ys;
    assert |ys| > 0 ==> ys[0] in xs;
    if |xs| > 0 {
      assert xs == [xs[0]] + xs[1..];
      assert ys == [ys[0]] + ys[1..];
      assert xs[0] in ys && ys[0] in xs;
      if xs[0] != ys[0] {
        var i :| 0 <= i < |ys| && ys[i] == xs[0];
        var j :| 0 <= j < |xs| && xs[j] == ys[0];
        assert Below(ys[0], xs[0]);
        assert Below(xs[0], ys[0]);
        BelowAntisymmetric(xs[0], ys[0]);
      }
      forall x
        ensures x in xs[1..] <==> x in ys[1..]
      {
        if x in xs[1..] {
          var k :| 1 <= k < |xs| && xs[k] == x;
          assert x in ys;
        }
        if x in ys[1..] {
          var k :| 1 <= k < |ys| && ys[k] == x;
          assert x in xs;
        }
      }
      StrictlySortedUnique(xs[1..], ys[1..]);
    }
  }

  /** Length of the longest prefix of `s` whose characters all satisfy `p`. */
  function Run(s: string, p: char -> bool): (n: nat)
    ensures n <= |s|
    ensures forall i | 0 <= i < n :: p(s[i])
    ensures n == |s| || !p(s[n])
  {
    if |s| > 0 && p(s[0]) then 1 + Run(s[1..], p) else 0
  }

  /** A run of `p`-characters followed by text that does not continue it is
      measured exactly. */
  lemma {:induction false} RunOfConcat(a: string, b: string, p: char -> bool)
    requires forall i | 0 <= i < |a| :: p(a[i])
    requires |b| == 0 || !p(b[0])
    ensures Run(a + b, p) == |a|
  {
    if |a| > 0 {
      assert (a + b)[1..] == a[1..] + b;
      RunOfConcat(a[1..], b, p);
    }
  }
}

=== FILE: wrappers.dfy ===
/**
  Failure-compatible return types used across the model: `Option` for the
  source's `None` results and `Result` for the exceptions it raises.
 */
module Wrappers {

  datatype Option<+T> = None | Some(value: T)

  datatype Result<+R, +E> = Success(value: R) | Failure(error: E)
}
